=== FILE: README.md ===
# Kindergeld WhatsApp bot: dialogue, normaliser and form filler in Dafny

This project models the core of a WhatsApp bot. The bot collects the data of a
German child-benefit (Kindergeld) application one chat message at a time. It
then fills the Familienkasse form KG1 as a PDF.

The model covers four parts of the bot:

- **Normaliser and completeness check** (`validators.dfy`, module
  `Validators`). `NormalizeValue` turns raw chat text into the canonical value
  of a field type:
  - yes/no words become booleans;
  - `d.m.yyyy` dates become zero-padded dates;
  - postcodes and tax ids are reduced to their digits;
  - IBANs lose their spaces and are upper-cased;
  - whole numbers are read;
  - relations, child states and `MM.YYYY` months are canonicalised;
  - any other type becomes the stripped text.

  A text that cannot be read gives `None`. `IsComplete` decides whether a
  session is ready and which keys are still missing.
- **The dialogue step** (`orchestrator.dfy`, module `Orchestrator`).
  - `EnsureState` is the per-user session store.
  - `T` is the locale lookup.
  - `Step` / `HandleMessage` handle one message:
    1. the Wohngeld keyword switch;
    2. the first-field gate;
    3. the top-level field loop;
    4. the child count and child records;
    5. finalisation.

  The PDF build and the upload are represented only by their outcome, a
  `Delivery` parameter. Where the Python code raises, the step answers
  `Crashed` and keeps the session as mutated up to that point.
- **The PDF filler** (`filler.dfy`, module `Filler`).
  - `WidgetType` names the widget type codes.
  - `FillKindergeld` builds the flat `fill_442` input from a session.
  - `Fill442` is the ordered list of widget writes `fill_442` performs on a
    document. The document is given as widget name to widget type code.
  - `Final` is the value a slot ends up with.
- **The Twilio webhook** (`webhook.dfy`, module `Webhook`). `DetectLang`
  sniffs the language, and `TwilioUser` removes the `whatsapp:` channel
  prefix. `TwilioTurn` is one webhook call around `HandleMessage`; an exception
  there becomes the fixed apology.

`text.dfy` (module `Text`) holds the Python `str` operations the code uses,
on ASCII text. `wrappers.dfy` holds `Option`.

Three behaviours of the code are stated as lemmas, because the model follows
what the code does:

- **A new session never gets past its first field.** At index 0 the gate only
  re-asks for `order[0]` until that field is set, and nothing else ever sets
  it (`Orchestrator.EmptySessionNeverProgresses`).
- **Each child record receives at most the child's name.** The guard
  `len(kids) == 0 or len(kids) < i` holds for every `i = len(kids) + 1`, so
  every message in the child section opens a new record.
- **Some dates are not read back.** A date with a year below 1000 is printed
  without padding and is then rejected when read again
  (`Validators.DateShortYearNotIdempotent`).

Further behaviours of the code that the model keeps:

- **A child count of 0 still asks for child 1's name**
  (`Orchestrator.KidCountAsksFirstChild`). Finalisation comes on the next
  message.
- **Two inputs raise.** At index 0 an empty field order raises IndexError, and
  a child count stored as a string raises TypeError.
- **No free-text extraction and no commands.** Apart from the Wohngeld
  keyword, a message is only ever read as the value of the next field; the code
  has no reset or status command.

## Model

| member | source | states |
|---|---|---|
| Validators.NormalizeValue | app/validators.py:3-37 | a value is produced only if it has the canonical shape of the requested type; an untyped field yields the stripped text exactly when that text is not empty |
| Validators.BoolTokens | app/validators.py:5-9 | a bool is true exactly for the yes words and false exactly for the no words (after strip and lower-case), otherwise unreadable; no word is in both lists |
| Validators.NormalizeDate | app/validators.py:10-16 | a text is accepted exactly when its space-free form matches the pattern and names a real calendar date; the value is that date in canonical form, with the numbers matched in the space-free text |
| Validators.DateIgnoresSpaces | app/validators.py:10-11 | spaces anywhere in a date text are ignored: it reads as the stripped text with every space deleted |
| Validators.DateSpaced | app/validators.py:10-16 | day, month and year groups with a space after each dot read exactly as the groups joined by bare dots |
| Validators.DateSpacedExample | app/validators.py:10-16 | "1. 1. 2024" reads as "01.01.2024" |
| Validators.DateOfGroups | app/validators.py:10-16 | a 1-2 digit day, a 1-2 digit month and a 4-digit year joined by dots give the zero-padded date exactly when that date exists, otherwise nothing |
| Validators.DateNeedsFourDigitYear | app/validators.py:11-12 | a year group without exactly four digits is rejected |
| Validators.DatePaddedExample | app/validators.py:10-16 | "1.1.2024" reads as "01.01.2024" |
| Validators.DateImpossibleExample | app/validators.py:14-15 | "31.02.2024" is rejected because the calendar has no such day |
| Validators.DateShortYearExample | app/validators.py:13-16 | "01.01.0999" reads as "01.01.999": the year is printed without padding |
| Validators.DateThreeDigitYearExample | app/validators.py:11-12 | "01.01.999" is rejected |
| Validators.DateYearZeroExample | app/validators.py:14-15 | year 0 is rejected |
| Validators.DateAccepted | app/validators.py:10-16 | every accepted date is the formatting of an existing calendar date with day and month below 100 |
| Validators.FormattedDateReads | app/validators.py:11-16 | a formatted date reads back as itself exactly when its year has four digits |
| Validators.MatchFormatted | app/validators.py:11-13 | the date pattern recovers day, month and year from a formatted date exactly when the year has four digits |
| Validators.DateIdempotent | app/validators.py:10-16 | a normalised date of ten characters normalises to itself |
| Validators.DateShortYearNotIdempotent | app/validators.py:11-16 | a normalised date shorter than ten characters is rejected when fed back |
| Validators.DateFullYear | app/validators.py:13-16 | a normalised date has ten characters exactly when its year is at least 1000 |
| Validators.NormalizeDigits | app/validators.py:17-19 | the branch keeps the digits of the text, whatever separates them, and accepts the text exactly when it holds the required number of digits, which become the value |
| Validators.DigitFieldsRead | app/validators.py:17-25 | a postcode (tax id) is read from the raw text exactly when it holds five (eleven) digits, and the value is those digits in order; surrounding whitespace makes no difference |
| Validators.PostcodeSeparated | app/validators.py:17-19 | two digit groups of five digits in all, around any non-digit separator, read as the postcode of those digits |
| Validators.PostcodeSpacedExample | app/validators.py:17-19 | "10 115" reads as the postcode "10115" |
| Validators.NormalizeIban | app/validators.py:20-22 | a text is accepted exactly when, without its spaces and upper-cased, it is "DE" followed by twenty digits, and that is the value |
| Validators.IbanIgnoresCaseAndSpaces | app/validators.py:20-22 | lower-casing the text or deleting its spaces does not change what the IBAN branch reads |
| Validators.IbanTextIgnoresCase | app/validators.py:20-22 | the IBAN type reads a text the same in lower case, upper case or as written |
| Validators.IbanReads | app/validators.py:20-22 | a German IBAN in canonical form reads as itself |
| Validators.DigitsRead | app/validators.py:17-25 | a string of exactly the required number of digits reads as itself |
| Validators.DigitFieldsIdempotent | app/validators.py:17-25 | postcode, tax id and IBAN results normalise to themselves |
| Validators.IntRoundTrip | app/validators.py:26-27 | an int is read exactly when the stripped text is a non-empty run of digits, and the decimal form of n reads as n |
| Validators.IntLeadingZeros | app/validators.py:26-27 | leading zeros are ignored: any run of zeros before the decimal form of n still reads as n |
| Validators.NormalizeChoice | app/validators.py:28-33 | a text is accepted exactly when its lower-cased form is a listed word, and that lower-cased word is the value |
| Validators.ChoiceIgnoresCase | app/validators.py:28-33 | upper- or lower-casing the text does not change the enum reading |
| Validators.EnumReads | app/validators.py:28-33 | relation and child status accept exactly a listed word in any case, with any surrounding whitespace, as its lower-case form |
| Validators.EnumCapitals | app/validators.py:28-33 | a listed relation or child-status word written in capitals, with whitespace around it, reads as the listed word |
| Validators.ChoiceBranchIdempotent | app/validators.py:28-33 | an accepted choice is the lower-cased text, is listed, and reads as itself |
| Validators.EnumIdempotent | app/validators.py:28-33 | relation and child status results are the lower-cased stripped text, are in their list, and normalise to themselves |
| Validators.MonthOfGroups | app/validators.py:34-36 | a month of one digit, or two digits 01..12, a dot and a four-digit year are accepted, with the month zero-padded and the year kept |
| Validators.MonthAccepted | app/validators.py:34-36 | every accepted month text is such a month, a dot and a four-digit year, and the value is the padded month and that year |
| Validators.MonthPadded | app/validators.py:34-36 | a one-digit month 1..9 gets a leading zero, so "3.2024" reads as "03.2024" |
| Validators.MonthBranchIdempotent | app/validators.py:34-36 | an accepted month is stripped and reads as itself |
| Validators.MonthIdempotent | app/validators.py:34-36 | a normalised month normalises to itself |
| Validators.StringIdempotent | app/validators.py:37 | an untyped result is non-empty, has no surrounding whitespace and normalises to itself |
| Validators.Absent | app/validators.py:43 | the missing list holds exactly the required keys absent from the fields, in their declared order |
| Validators.IsComplete | app/validators.py:39-49 | other forms are always complete; a Kindergeld session is complete exactly when every required key is present and the child count equals the number of child records; otherwise the missing keys come in order, or ["kid_name"] for a wrong count |
| Orchestrator.EnsureState | app/orchestrator.py:32-42 | the user's session is returned, created fresh on first contact, and no other session changes |
| Orchestrator.T | app/orchestrator.py:44-45 | a key is looked up in the language's table, unknown languages use German, and a missing key is returned as it is |
| Orchestrator.Less | app/orchestrator.py:96 | comparing the record count with the stored child count follows Python: a bool counts as 0 or 1, and a string raises |
| Orchestrator.NextAbsent | app/orchestrator.py:65-78 | the loop skips exactly the present fields and stops at the first absent one or at the end of the order |
| Orchestrator.Consume | app/orchestrator.py:67-76 | on the first absent field the index moves by at most one; a prompt always asks for the field at the new index and is missing only once the order is used up; at most that field is added and every other field keeps its value |
| Orchestrator.TopLevel | app/orchestrator.py:65-78 | the top-level loop stores at most one field, the first absent one, with the reading of the text under its type; it asks for the next field, or for the same field again when the text was unreadable; it never changes a stored field |
| Orchestrator.TopLevelAddsOne | app/orchestrator.py:65-78 | the keys the loop adds are at most one field of the order, holding the text's reading under its type |
| Orchestrator.FirstMissing | app/orchestrator.py:108-110 | the position found is the first child field the record lacks |
| Orchestrator.FillKid | app/orchestrator.py:101-113 | the first missing child field consumes the text if it is readable; the reply asks for the next missing field, else for the next child's name while more children are due |
| Orchestrator.NewRecordFill | app/orchestrator.py:97-110 | a freshly opened record receives at most the child's name, and the reply asks for the birth date, or for the name again |
| Orchestrator.Finish | app/orchestrator.py:116-140 | an incomplete session is asked for its first missing key; a complete one is delivered, and the phase becomes "done" only when the delivery succeeds |
| Orchestrator.KidPhase | app/orchestrator.py:81-113 | the child count is asked for first and its storing asks for child 1's name; while fewer records than the count exist, every message opens a new record holding at most the name; a string count raises |
| Orchestrator.Collect | app/orchestrator.py:65-140 | stored fields are never changed, the form and language are kept, and a finished reply means the session is complete and delivered |
| Orchestrator.Step | app/orchestrator.py:47-140 | "wohngeld" in the text resets the session to the Wohngeld form; at index 0 an empty order raises, and an unset first field is asked for; past that gate the text goes to the field loop; stored fields are kept, and the phase changes only on a successful delivery |
| Orchestrator.HandleMessage | app/orchestrator.py:47-49 | only the messaging user's session changes, and it becomes the stepped session |
| Orchestrator.EmptySessionNeverProgresses | app/orchestrator.py:62-63 | a session with no fields at index 0 stays empty whatever it is sent, answering only the first prompt, the Wohngeld switch or a crash |
| Orchestrator.FreshSessionNeverProgresses | app/orchestrator.py:62-63 | a new user's session never stores a field |
| Orchestrator.FreshInv | app/orchestrator.py:32-42 | a new session satisfies the session invariant |
| Orchestrator.TopLevelKeepsInv | app/orchestrator.py:65-78 | the top-level loop keeps the session invariant |
| Orchestrator.KidPhaseKeepsInv | app/orchestrator.py:81-113 | the child section keeps the session invariant: never more records than the count, each record holding at most a name |
| Orchestrator.FinishKeepsInv | app/orchestrator.py:116-140 | finalisation keeps the session invariant |
| Orchestrator.CollectKeepsInv | app/orchestrator.py:65-140 | the part of the step after the gate keeps the session invariant |
| Orchestrator.StepKeepsInv | app/orchestrator.py:47-140 | every step keeps the session invariant |
| Orchestrator.RunKeepsInv | app/orchestrator.py:47-140 | any sequence of messages keeps the session invariant |
| Orchestrator.ReachableKids | app/orchestrator.py:94-113 | from any session satisfying the invariant, a new user's included, every message sequence leaves child records that hold at most a name, none before the count is stored, and no more than an integer count |
| Orchestrator.CollectStoresNormalised | app/orchestrator.py:65-89 | every newly stored value is the normaliser's reading of the text, either for one field of the order or for the child count, and at most one field of the order is added |
| Orchestrator.StepStoresNormalised | app/orchestrator.py:65-89 | the same for a whole step: new values are readings of the message text, and at most one field of the order is new |
| Orchestrator.KidCountAsksFirstChild | app/orchestrator.py:83-89 | the step that stores the child count asks for child 1's name and resets the child index, also for a count of 0 |
| Orchestrator.FinalisedSession | app/orchestrator.py:116-140 | a delivery attempt happens only once the index has passed the field order and index 0, and the session is complete |
| Orchestrator.CompleteSessionFinalises | app/orchestrator.py:116-140 | a complete session past the order and past index 0 goes straight to finalisation |
| Orchestrator.FinalisationRepeats | app/orchestrator.py:116-140 | after a delivery attempt, the next message that does not switch forms attempts delivery again with nothing else changed |
| Orchestrator.PhaseNeverRead | app/orchestrator.py:47-140 | the step never reads the phase: sessions that differ only in their phase get the same reply and the same new session apart from the phase |
| Filler.WidgetType | app/pdf/filler.py:29-41 | codes 1 to 7 and only they get a widget kind name, each its own: button, text, checkbox, combobox, listbox, signature, radio in code order; any other code becomes its decimal text |
| Filler.WidgetTypeInjective | app/pdf/filler.py:29-41 | different codes get different names |
| Filler.KgWrites | app/pdf/filler.py:247-250 | part j of the Kindergeld number is written into the j-th number slot, for every slot present, and nothing else is written |
| Filler.TextWrites | app/pdf/filler.py:271-279 | exactly the non-empty entries whose widget exists and is a text, combo or list box are written, each with its own value |
| Filler.CbTarget | app/pdf/filler.py:282-292 | a listed status selects the checkbox the status map gives it; an unlisted one selects none |
| Filler.MaritalWrites | app/pdf/filler.py:293-297 | every present marital checkbox is set, checked exactly when it is the chosen one |
| Filler.KgPartsWritten | app/pdf/filler.py:247-250 | each number slot ends up holding its part exactly when twelve parts are given and the widget exists |
| Filler.TextWritten | app/pdf/filler.py:258-279 | each text slot ends up holding its value exactly when the value is non-empty and its widget exists and takes text |
| Filler.AccountHolderName | app/pdf/filler.py:268 | the account holder field gets the applicant's name when the applicant holds the account, else the other person's name |
| Filler.AttachmentsWritten | app/pdf/filler.py:253-255 | the attachment count is written exactly when it is non-empty and its widget exists |
| Filler.MaritalChecked | app/pdf/filler.py:282-297 | each present marital checkbox ends up checked exactly when the lower-cased status maps to it |
| Filler.AtMostOneMaritalChecked | app/pdf/filler.py:282-297 | at most one marital checkbox ends up checked |
| Filler.UnlistedMaritalUnchecked | app/pdf/filler.py:292-297 | an unlisted marital status leaves every marital checkbox unchecked |
| Filler.SeparatedChecked | app/pdf/filler.py:289-297 | "dauernd getrennt lebend" checks the "separated" box |
| Filler.AccountHolderChecked | app/pdf/filler.py:299-309 | "applicant holds the account" is checked exactly when kh is "antragsteller" in any case, "another person" exactly otherwise, each when its widget exists |
| Filler.ExactlyOneAccountHolder | app/pdf/filler.py:299-309 | with both widgets present exactly one account-holder box is checked |
| Filler.Render | app/pdf/filler.py:335 | a stored string renders as itself, a number as its decimal digits without leading zeros, a bool as True or False |
| Filler.Address | app/pdf/filler.py:335 | the address line never starts or ends with a comma or a space |
| Filler.AddressFull | app/pdf/filler.py:335 | street, postcode and city are joined as "street, plz city" |
| Filler.AddressWithoutStreet | app/pdf/filler.py:335 | without a street the leading ", " is dropped |
| Filler.AddressWithoutCity | app/pdf/filler.py:335 | without a city the trailing space is dropped |
| Filler.AddressEmpty | app/pdf/filler.py:335 | no address parts give an empty address |
| Filler.TextField | app/pdf/filler.py:341-346 | a stored string reads as itself and an absent field as ""; exactly a present non-string value makes the field unusable as text |
| Filler.AddressOf | app/pdf/filler.py:335 | the session's address line never starts or ends with a comma or a space |
| Filler.FillKindergeld | app/pdf/filler.py:320-353 | a payload exists exactly when the text fields are strings; it carries the session's dob, citizenship, marital and iban texts and its address line; it names the applicant as account holder, has no Kindergeld number, birth place or bank details, counts the children as attachments, takes a single word as first name, and has a trimmed address |
| Filler.Payload | app/pdf/filler.py:338-351 | the applicant's texts go to their fields unchanged, and the fixed parts are as above |
| Filler.NameSplit | app/pdf/filler.py:329-332 | a full name made of optional whitespace, a word, a whitespace run of any length and a rest is split into that word as first name and the rest as last name |
| Filler.OneWordName | app/pdf/filler.py:329-332 | a one-word full name becomes the first name, with an empty last name |
| Filler.SessionAddress | app/pdf/filler.py:335 | stored street, postcode and city give the address "street, plz city" |
| Filler.SessionWithoutAddress | app/pdf/filler.py:335 | a session without address fields gets an empty address |
| Filler.KindergeldForm | app/pdf/filler.py:338-351 | a payload built from a session fills no Kindergeld-number slot, writes the child count as the attachment count, checks "applicant holds the account" and unchecks "another person" |
| Webhook.AnyIn | app/main.py:82 | some listed token is contained in the text exactly when the test holds |
| Webhook.DetectLang | app/main.py:80-86 | the answer is "en" exactly when an English token occurs in the lower-cased text, "sq" exactly when no English but an Albanian token occurs, otherwise "de" |
| Webhook.DetectLangIgnoresCase | app/main.py:81 | lower- and upper-casing the text does not change the language |
| Webhook.EnglishWins | app/main.py:82-83 | any text containing an English token, in any ASCII case, is English |
| Webhook.NoTokenIsGerman | app/main.py:86 | a text without any token is German |
| Webhook.EmptyIsGerman | app/main.py:80-86 | the empty text is German |
| Webhook.PostIsAlbanian | app/main.py:84-85 | "Post" is Albanian because it contains "po" |
| Webhook.NochIsEnglish | app/main.py:82-83 | "noch" is English because it contains "no" |
| Webhook.TwilioUser | app/main.py:59 | deleting the channel prefix changes the sender exactly when it contains "whatsapp:", and never lengthens it |
| Webhook.TwilioUserInfix | app/main.py:59 | a "whatsapp:" after other text is deleted too: text before it that has no "w" is kept and the deletion goes on after it |
| Webhook.TwilioUserOfChannel | app/main.py:59 | "whatsapp:" followed by a number becomes the number |
| Webhook.TwilioUserPlain | app/main.py:59 | a sender without the prefix is kept as it is |
| Webhook.ChannelPrefixSharesSession | app/main.py:59 | a sender with and without the channel prefix reach the same session and get the same reply |
| Webhook.ReplyText | app/main.py:64-67 | the crash apology and the two fixed finalisation texts are distinct, so the text of a non-prompt reply names its outcome |
| Webhook.TwilioTurn | app/main.py:58-67 | one webhook call changes only the sender's session, under the id with the prefix removed, records the language sniffed from the body, and answers the handler's reply in that language |
| Webhook.EmptyFormApologises | app/main.py:63-67 | a form without fields makes the handler raise for a sender at index 0, every new sender included, and the sender gets the apology |
| Text.StripIdempotent | app/validators.py:4 | stripping twice is stripping once |
| Text.DigitsOfStrip | app/validators.py:18 | stripping whitespace keeps every digit of the text |
| Text.StripLower | app/validators.py:4-6 | stripping and lower-casing commute |
| Text.StripChars | app/pdf/filler.py:335 | stripping removes only characters of the set from the ends, and the result neither starts nor ends with one |
| Text.SplitFirst | app/pdf/filler.py:330-332 | the text is whitespace, the first part, whitespace and the rest, with non-empty whitespace before a non-empty rest; the first part is a single word, empty exactly for a blank text; the rest starts with a non-space |
| Text.SplitFirstJoin | app/pdf/filler.py:330-332 | splitting whitespace, a word, a whitespace run of any length and a rest gives back the word and the rest |
| Text.RemoveAllAbsent | app/main.py:59 | removing a pattern that does not occur leaves the text unchanged |
| Text.ParseNatToString | app/validators.py:27 | reading the decimal form of n gives n |

## Left out

- Loading the locale and form JSON files is not modelled. The step takes the form definition as a parameter. Since only the Kindergeld form is defined, `FORMS.get` always returns it.
- Orchestrator.T: the `.format(**kw)` interpolation of the child number is not modelled. A reply carries the locale key and the child number.
- The PDF service call, the Twilio upload, `APP_BASE_URL` handling and the logging are not modelled. They become the `Delivery` outcome, and sending the reply text is left out.
- The Meta webhook, `make_pdf`, the debug grid and the widget dump are outside the modelled core.
- PyMuPDF itself is not modelled: opening, `_first`, `_set_text`, `_set_checkbox`, flattening and saving. A document is a lookup from widget name to type code, and `Fill442` gives the writes in order.
- Text.Lower: lower- and upper-casing and `isspace`/`isdigit` are ASCII only. Python's Unicode case mappings (for example "Ë") and Unicode digits are not modelled.
- A `None` text is identified with the empty text (`text or ""`).
- Filler.FillKindergeld: a non-string value in `dob`, `citizenship`, `marital`, `iban` or `full_name` gives no payload. In Python a non-string `full_name` raises. A `marital` of False or 0 becomes "" and a truthy non-string one raises. A falsy `dob`, `citizenship` or `iban` is skipped like an empty text, and a truthy non-string one is handed to PyMuPDF, which is not modelled.
- Orchestrator.Run: its contract only states that each message gets one reply. The properties of runs are the lemmas about it.
- Validators.NormalizeValue: its own contract states the shape of each result. Which texts each branch accepts and what it yields is stated by the branch functions (`NormalizeDate`, `NormalizeDigits`, `NormalizeIban`, `NormalizeChoice`) and by the lemmas `BoolTokens`, `DateOfGroups`, `DateIgnoresSpaces`, `DigitFieldsRead`, `IntRoundTrip`, `IntLeadingZeros`, `EnumReads`, `MonthOfGroups`, `MonthAccepted` and `StringIdempotent`.

=== FILE: filler.dfy ===
/**
 The data side of the PDF filler for the Kindergeld form KG1 (app/pdf/filler.py).
 `FillKindergeld` turns a finished session into the flat record `fill_442`
 reads; `Fill442` decides, for a document given as a lookup from widget name
 to widget type code, which logical slot receives which text or checkbox
 value, as the ordered list of writes the Python code performs.
 */
module Filler {
  import opened Wrappers
  import opened Text
  import opened Validators

  // ---------------------------------------------------------------------------
  // Widgets
  // ---------------------------------------------------------------------------

  /** The names PyMuPDF's widget type codes 1 to 7 stand for, in code order: code `c` is named `KindOrder[c - 1]`. */
  const KindOrder: seq<string> := ["button", "text", "checkbox", "combobox", "listbox", "signature", "radio"]

  /** The names PyMuPDF's widget type codes 1 to 7 stand for. */
  const WidgetKinds: set<string> := set k | k in KindOrder

  /** The widget kinds a text value is written into. */
  const TextKinds: set<string> := {"text", "combobox", "listbox"}

  /**
   Python's `_widget_type`: the name of a widget type code, and the code in
   decimal for anything outside 1 to 7.
   */
  function WidgetType(code: int): (r: string)
    ensures 1 <= code <= 7 <==> r in WidgetKinds
    ensures 1 <= code <= 7 ==> r == KindOrder[code - 1]
    ensures code >= 0 && !(1 <= code <= 7) ==> IsDigitString(r) && ParseNat(r) == code
    ensures code < 0 ==> |r| > 1 && r[0] == '-' && AllDigits(r[1..]) && ParseNat(r[1..]) == -code
  {
    if 1 <= code <= 7 then KindName(code)
    else
      var r := Decimal(code);
      NotAKind(r);
      r
  }

  /** The names of the codes 1 to 7. */
  function KindName(code: int): (r: string)
    requires 1 <= code <= 7
    ensures r in WidgetKinds
    ensures r == KindOrder[code - 1]
  {
    if code == 1 then "button"
    else if code == 2 then "text"
    else if code == 3 then "checkbox"
    else if code == 4 then "combobox"
    else if code == 5 then "listbox"
    else if code == 6 then "signature"
    else "radio"
  }

  /** `str(code)`: the code in decimal, with a minus sign when negative. */
  function Decimal(code: int): (r: string)
    ensures |r| > 0 && (IsDigit(r[0]) || r[0] == '-')
    ensures code >= 0 ==> IsDigitString(r) && ParseNat(r) == code
    ensures code < 0 ==> |r| > 1 && r[0] == '-' && AllDigits(r[1..]) && ParseNat(r[1..]) == -code
  {
    var r := IntToString(code);
    if code >= 0 then
      ParseNatToString(code);
      r
    else
      assert r[1..] == NatToString(-code);
      ParseNatToString(-code);
      r
  }

  /** Every kind name starts with a letter, so no decimal text is one. */
  lemma NotAKind(r: string)
    requires |r| > 0 && (IsDigit(r[0]) || r[0] == '-')
    ensures r !in WidgetKinds
  {
  }

  /** Different codes have different type names: the decimal fallback never collides with a name or another code. */
  lemma WidgetTypeInjective(a: int, b: int)
    requires WidgetType(a) == WidgetType(b)
    ensures a == b
  {
    var ra, rb := WidgetType(a), WidgetType(b);
    if a < 0 && b < 0 {
      assert ra[1..] == rb[1..];
    }
  }

  /** The document: for every widget name, the type code of the first widget of that name (PyMuPDF's `_first`). */
  type Doc = map<string, int>

  /** The `MAP` table: logical slot to widget name. */
  const WidgetNames: map<string, string> := map[
    "kgnr_teil1" := "TEXTFIELD.p0.x24.y15",
    "kgnr_teil2" := "TEXTFIELD.p0.x22.y27",
    "kgnr_teil3" := "TEXTFIELD.p0.x28.y27",
    "kgnr_teil4" := "TEXTFIELD.p0.x38.y27",
    "kgnr_teil5" := "TEXTFIELD.p0.x44.y27",
    "kgnr_teil6" := "TEXTFIELD.p0.x50.y27",
    "kgnr_teil7" := "TEXTFIELD.p0.x60.y27",
    "kgnr_teil8" := "TEXTFIELD.p0.x66.y27",
    "kgnr_teil9" := "TEXTFIELD.p0.x72.y27",
    "kgnr_teil10" := "TEXTFIELD.p0.x82.y27",
    "kgnr_teil11" := "TEXTFIELD.p0.x88.y27",
    "kgnr_teil12" := "TEXTFIELD.p0.x94.y27",
    "anz_anlagen" := "TEXTFIELD.p0.x140.y43",
    "familienname" := "TEXTFIELD.p0.x22.y103",
    "vorname" := "TEXTFIELD.p0.x22.y113",
    "geburtsdatum" := "TEXTFIELD.p0.x22.y125",
    "geburtsort" := "TEXTFIELD.p0.x112.y125",
    "staatsang" := "TEXTFIELD.p0.x140.y125",
    "anschrift" := "TEXTFIELD.p0.x22.y171",
    "fs_ledig" := "CHECKBOX.p0.x42.y146",
    "fs_verheiratet" := "CHECKBOX.p0.x94.y146",
    "fs_geschieden" := "CHECKBOX.p0.x120.y146",
    "fs_aufgehoben" := "CHECKBOX.p0.x94.y152",
    "fs_getrennt" := "CHECKBOX.p0.x154.y152",
    "fs_verwitwet" := "CHECKBOX.p0.x120.y152",
    "iban" := "TEXTFIELD.p1.x22.y221",
    "bic" := "TEXTFIELD.p1.x108.y220",
    "bank" := "TEXTFIELD.p1.x22.y251",
    "kontoinhaber" := "TEXTFIELD.p1.x108.y250",
    "kh_ist_antragsteller" := "CHECKBOX.p0.x20.y233",
    "kh_andere_person" := "CHECKBOX.p0.x20.y239",
    "kh_andere_name" := "TEXTFIELD.p0.x90.y239"
  ]

  /** The twelve slots of the Kindergeld number, `f"kgnr_teil{i}"` for i = 1..12. */
  const KgSlots: seq<string> := [
    "kgnr_teil1", "kgnr_teil2", "kgnr_teil3", "kgnr_teil4", "kgnr_teil5", "kgnr_teil6",
    "kgnr_teil7", "kgnr_teil8", "kgnr_teil9", "kgnr_teil10", "kgnr_teil11", "kgnr_teil12"]

  /** The six marital-status checkboxes. */
  const FsSlots: set<string> := {"fs_ledig", "fs_verheiratet", "fs_geschieden", "fs_verwitwet", "fs_aufgehoben", "fs_getrennt"}

  /** `cb_map` in its declared order: lower-cased status to checkbox slot. */
  const CbMap: seq<(string, string)> := [
    ("ledig", "fs_ledig"),
    ("verheiratet", "fs_verheiratet"),
    ("geschieden", "fs_geschieden"),
    ("verwitwet", "fs_verwitwet"),
    ("aufgehoben", "fs_aufgehoben"),
    ("getrennt", "fs_getrennt"),
    ("dauernd getrennt", "fs_getrennt"),
    ("dauernd getrennt lebend", "fs_getrennt")]

  /** Whether the slot's widget exists in the document. */
  predicate Present(doc: Doc, slot: string) {
    slot in WidgetNames && WidgetNames[slot] in doc
  }

  /** The type name of a present slot's widget. */
  function KindAt(doc: Doc, slot: string): string
    requires Present(doc, slot)
  {
    WidgetType(doc[WidgetNames[slot]])
  }

  // ---------------------------------------------------------------------------
  // The fill_442 input
  // ---------------------------------------------------------------------------

  /**
   The `data` dictionary of `fill_442` after its `.get` defaults: every text
   key defaults to "", `kh` to "antragsteller", `kg_parts` to no parts.
   */
  datatype PdfData = PdfData(
    lastName: string,
    firstName: string,
    birthDate: string,
    birthPlace: string,
    citizenship: string,
    address: string,
    marital: string,
    iban: string,
    bic: string,
    bank: string,
    kh: string,
    khName: string,
    kgParts: seq<string>,
    anzAnlagen: string)

  /** A value written into a widget: a text, or a checkbox state ("Yes"/"Off"). */
  datatype Write = SetText(value: string) | SetCheck(on: bool)

  /** The writes in the order `fill_442` performs them, by logical slot. */
  type Plan = seq<(string, Write)>

  /** The value a slot's widget holds after the plan: the last write to it, if any. */
  function Final(plan: Plan, slot: string): (r: Option<Write>)
    ensures r.Some? ==> (slot, r.value) in plan
    ensures r.None? <==> forall e :: e in plan ==> e.0 != slot
  {
    if |plan| == 0 then None
    else if plan[|plan| - 1].0 == slot then Some(plan[|plan| - 1].1)
    else
      var r := Final(plan[..|plan| - 1], slot);
      assert forall e :: e in plan ==> e in plan[..|plan| - 1] || e == plan[|plan| - 1];
      r
  }

  /** When every write to a slot writes the same value, that value is the slot's final value. */
  lemma {:induction false} FinalOfUniform(plan: Plan, slot: string, w: Write)
    requires forall e :: e in plan && e.0 == slot ==> e.1 == w
    ensures Final(plan, slot) == if (slot, w) in plan then Some(w) else None
  {
    if Final(plan, slot).None? {
      assert (slot, w) !in plan;
    }
  }

  // ---------------------------------------------------------------------------
  // The groups of writes
  // ---------------------------------------------------------------------------

  /** Section 2.1: part `j` into slot `kgnr_teil{j+1}` for the present widgets, from part `i` on. */
  function KgWrites(parts: seq<string>, doc: Doc, i: nat): (p: Plan)
    requires |parts| == 12 && i <= 12
    ensures forall e :: e in p ==> exists j :: i <= j < 12 && e == (KgSlots[j], SetText(parts[j])) && Present(doc, KgSlots[j])
    ensures forall j :: i <= j < 12 && Present(doc, KgSlots[j]) ==> (KgSlots[j], SetText(parts[j])) in p
    decreases 12 - i
  {
    if i == 12 then []
    else
      var rest := KgWrites(parts, doc, i + 1);
      if Present(doc, KgSlots[i]) then [(KgSlots[i], SetText(parts[i]))] + rest else rest
  }

  /** Section 2.2: the attachment count, when it is non-empty and its widget exists. */
  function AnzWrites(anz: string, doc: Doc): Plan {
    if anz != "" && Present(doc, "anz_anlagen") then [("anz_anlagen", SetText(anz))] else []
  }

  /**
   The `mapping_text` table: slot to text. The account holder is the
   applicant's stripped full name when `kh` is "antragsteller", else `kh_name`.
   */
  function TextEntries(data: PdfData): seq<(string, string)> {
    var kh := Lower(data.kh);
    [("familienname", data.lastName),
     ("vorname", data.firstName),
     ("geburtsdatum", data.birthDate),
     ("geburtsort", data.birthPlace),
     ("staatsang", data.citizenship),
     ("anschrift", data.address),
     ("iban", data.iban),
     ("bic", data.bic),
     ("bank", data.bank),
     ("kontoinhaber", if kh == "antragsteller" then Strip(data.firstName + " " + data.lastName) else data.khName),
     ("kh_andere_name", data.khName)]
  }

  /** Section 2.3: every non-empty text whose widget exists and takes text. */
  function TextWrites(entries: seq<(string, string)>, doc: Doc): (p: Plan)
    ensures forall e :: e in p ==> e.1.SetText? && (e.0, e.1.value) in entries
    ensures forall e :: e in p ==> e.1.value != "" && Present(doc, e.0) && KindAt(doc, e.0) in TextKinds
    ensures forall k, v :: (k, v) in entries && v != "" && Present(doc, k) && KindAt(doc, k) in TextKinds ==>
              (k, SetText(v)) in p
  {
    if |entries| == 0 then []
    else
      var (k, v) := entries[0];
      var rest := TextWrites(entries[1..], doc);
      assert forall e :: e in entries ==> e == entries[0] || e in entries[1..];
      if v != "" && Present(doc, k) && KindAt(doc, k) in TextKinds then [(k, SetText(v))] + rest else rest
  }

  /** `cb_map.get(marital, "")`: the checkbox slot of a lower-cased status, "" for an unlisted one. */
  function CbTarget(marital: string): (r: string)
    ensures r == "" || r in FsSlots
    ensures r != "" <==> exists l :: (l, r) in CbMap && l == marital
    ensures forall k :: (marital, k) in CbMap ==> r == k
  {
    if marital == "ledig" then "fs_ledig"
    else if marital == "verheiratet" then "fs_verheiratet"
    else if marital == "geschieden" then "fs_geschieden"
    else if marital == "verwitwet" then "fs_verwitwet"
    else if marital == "aufgehoben" then "fs_aufgehoben"
    else if marital in {"getrennt", "dauernd getrennt", "dauernd getrennt lebend"} then "fs_getrennt"
    else ""
  }

  /** Section 2.4: each listed checkbox that exists as a checkbox is set, checked iff it is the target. */
  function MaritalWrites(cb: seq<(string, string)>, target: string, doc: Doc): (p: Plan)
    ensures forall e :: e in p ==> e.1 == SetCheck(e.0 == target) && Present(doc, e.0) && KindAt(doc, e.0) == "checkbox"
    ensures forall e :: e in p ==> exists l :: (l, e.0) in cb
    ensures forall l, k :: (l, k) in cb && Present(doc, k) && KindAt(doc, k) == "checkbox" ==> (k, SetCheck(k == target)) in p
  {
    if |cb| == 0 then []
    else
      var (l, k) := cb[0];
      var rest := MaritalWrites(cb[1..], target, doc);
      assert forall e :: e in cb ==> e == cb[0] || e in cb[1..];
      assert forall e :: e in rest ==> exists l :: (l, e.0) in cb by {
        forall e | e in rest
          ensures exists l :: (l, e.0) in cb
        {
          var l' :| (l', e.0) in cb[1..];
          assert (l', e.0) in cb;
        }
      }
      if Present(doc, k) && KindAt(doc, k) == "checkbox" then [(k, SetCheck(k == target))] + rest else rest
  }

  /** Section 2.5: the two account-holder checkboxes, whichever exist, the applicant's checked iff `kh` is "antragsteller". */
  function KhWrites(kh: string, doc: Doc): Plan {
    var self := kh == "antragsteller";
    (if Present(doc, "kh_ist_antragsteller") then [("kh_ist_antragsteller", SetCheck(self))] else [])
    + (if Present(doc, "kh_andere_person") then [("kh_andere_person", SetCheck(!self))] else [])
  }

  /** The groups of writes of `fill_442`, on its input: the number only when exactly twelve parts are given. */
  function KgGroup(data: PdfData, doc: Doc): Plan {
    if |data.kgParts| == 12 then KgWrites(data.kgParts, doc, 0) else []
  }

  function AnzGroup(data: PdfData, doc: Doc): Plan {
    AnzWrites(data.anzAnlagen, doc)
  }

  function TextGroup(data: PdfData, doc: Doc): Plan {
    TextWrites(TextEntries(data), doc)
  }

  /** `marital` and `kh` are compared lower-cased. */
  function MaritalGroup(data: PdfData, doc: Doc): Plan {
    MaritalWrites(CbMap, CbTarget(Lower(data.marital)), doc)
  }

  function KhGroup(data: PdfData, doc: Doc): Plan {
    KhWrites(Lower(data.kh), doc)
  }

  /** Python's `fill_442` without the rendering: the writes to the form, in order. */
  function Fill442(data: PdfData, doc: Doc): Plan {
    KgGroup(data, doc) + AnzGroup(data, doc) + TextGroup(data, doc) + MaritalGroup(data, doc) + KhGroup(data, doc)
  }

  // ---------------------------------------------------------------------------
  // What each widget ends up holding
  // ---------------------------------------------------------------------------

  /** The last write to a slot in `a + b` is its last write in `b`, or failing that in `a`. */
  lemma {:induction false} FinalAppend(a: Plan, b: Plan, slot: string)
    ensures Final(a + b, slot) == if Final(b, slot).Some? then Final(b, slot) else Final(a, slot)
    decreases |b|
  {
    if |b| == 0 {
      assert a + b == a;
    } else {
      var ab := a + b;
      assert ab[|ab| - 1] == b[|b| - 1];
      assert ab[..|ab| - 1] == a + b[..|b| - 1];
      FinalAppend(a, b[..|b| - 1], slot);
    }
  }

  /** Whether a slot name starts with "kg", as only the Kindergeld-number slots do. */
  predicate KgNamed(slot: string) {
    |slot| >= 2 && slot[0] == 'k' && slot[1] == 'g'
  }

  lemma KgSlotsNamed(j: nat)
    requires j < 12
    ensures KgNamed(KgSlots[j])
  {
  }

  /** Twelve different slots. */
  lemma KgSlotsDistinct(a: nat, b: nat)
    requires a < 12 && b < 12 && KgSlots[a] == KgSlots[b]
    ensures a == b
  {
  }

  /** A slot's final value is its last write in the last group of `Fill442` that writes it. */
  lemma FinalFill442(data: PdfData, doc: Doc, slot: string)
    ensures Final(Fill442(data, doc), slot)
         == if Final(KhGroup(data, doc), slot).Some? then Final(KhGroup(data, doc), slot)
            else if Final(MaritalGroup(data, doc), slot).Some? then Final(MaritalGroup(data, doc), slot)
            else if Final(TextGroup(data, doc), slot).Some? then Final(TextGroup(data, doc), slot)
            else if Final(AnzGroup(data, doc), slot).Some? then Final(AnzGroup(data, doc), slot)
            else Final(KgGroup(data, doc), slot)
  {
    var g0, g1, g2, g3, g4 := KgGroup(data, doc), AnzGroup(data, doc), TextGroup(data, doc), MaritalGroup(data, doc), KhGroup(data, doc);
    FinalAppend(g0 + g1 + g2 + g3, g4, slot);
    FinalAppend(g0 + g1 + g2, g3, slot);
    FinalAppend(g0 + g1, g2, slot);
    FinalAppend(g0, g1, slot);
  }

  /** The text entries' slots. */
  const TextSlots: set<string> := {
    "familienname", "vorname", "geburtsdatum", "geburtsort", "staatsang", "anschrift",
    "iban", "bic", "bank", "kontoinhaber", "kh_andere_name"}

  /** Text is written only into the text entries' slots. */
  lemma TextWritesSlots(data: PdfData, doc: Doc, slot: string)
    requires slot !in TextSlots
    ensures Final(TextGroup(data, doc), slot).None?
  {
    TextEntriesSlots(data);
    EntriesSlots(TextEntries(data), doc, slot);
  }

  lemma TextEntriesSlots(data: PdfData)
    ensures forall e :: e in TextEntries(data) ==> e.0 in TextSlots
  {
  }

  lemma EntriesSlots(entries: seq<(string, string)>, doc: Doc, slot: string)
    requires forall e :: e in entries ==> e.0 != slot
    ensures Final(TextWrites(entries, doc), slot).None?
  {
    forall e | e in TextWrites(entries, doc) ensures e.0 != slot {
      assert (e.0, e.1.value) in entries;
    }
  }

  /** Marital-status checkboxes are written only into the six `fs_` slots. */
  lemma MaritalWritesSlots(data: PdfData, doc: Doc, slot: string)
    requires slot !in FsSlots
    ensures Final(MaritalGroup(data, doc), slot).None?
  {
    MaritalTargetSlots(CbTarget(Lower(data.marital)), doc, slot);
  }

  lemma MaritalTargetSlots(target: string, doc: Doc, slot: string)
    requires slot !in FsSlots
    ensures Final(MaritalWrites(CbMap, target, doc), slot).None?
  {
    forall e | e in MaritalWrites(CbMap, target, doc) ensures e.0 != slot {
      var l :| (l, e.0) in CbMap;
      CbMapSlot(l, e.0);
    }
  }

  /** `cb_map` sends every label to one of the six checkboxes. */
  lemma CbMapSlot(l: string, k: string)
    requires (l, k) in CbMap
    ensures k in FsSlots
  {
  }

  /** The Kindergeld-number group writes only the `kgnr_` slots. */
  lemma KgWritesSlots(data: PdfData, doc: Doc, slot: string)
    requires !KgNamed(slot)
    ensures Final(KgGroup(data, doc), slot).None?
  {
    if |data.kgParts| == 12 {
      forall e | e in KgWrites(data.kgParts, doc, 0) ensures e.0 != slot {
        var j :| 0 <= j < 12 && e == (KgSlots[j], SetText(data.kgParts[j])) && Present(doc, KgSlots[j]);
        KgSlotsNamed(j);
      }
    }
  }

  /** The account-holder group writes only its two checkboxes. */
  lemma KhWritesSlots(data: PdfData, doc: Doc, slot: string)
    requires slot != "kh_ist_antragsteller" && slot != "kh_andere_person"
    ensures Final(KhGroup(data, doc), slot).None?
  {
  }

  lemma KgNamedElsewhere(slot: string)
    requires KgNamed(slot)
    ensures slot !in TextSlots && slot !in FsSlots
    ensures slot != "anz_anlagen" && slot != "kh_ist_antragsteller" && slot != "kh_andere_person"
  {
  }

  /**
   The twelve parts of the Kindergeld number are written only when exactly
   twelve are supplied: part `j` into slot `kgnr_teil{j+1}` when its widget
   exists, and nothing into any of these slots otherwise.
   */
  lemma KgPartsWritten(data: PdfData, doc: Doc, j: nat)
    requires j < 12
    ensures Final(Fill442(data, doc), KgSlots[j])
         == if |data.kgParts| == 12 && Present(doc, KgSlots[j]) then Some(SetText(data.kgParts[j])) else None
  {
    var slot := KgSlots[j];
    KgSlotsNamed(j);
    KgNamedElsewhere(slot);
    AnzWritesSlots(data, doc, slot);
    TextWritesSlots(data, doc, slot);
    MaritalWritesSlots(data, doc, slot);
    KhWritesSlots(data, doc, slot);
    if |data.kgParts| == 12 {
      assert KgGroup(data, doc) == KgWrites(data.kgParts, doc, 0);
      KgGroupFinal(data.kgParts, doc, j);
    } else {
      assert KgGroup(data, doc) == [];
    }
    FinalFill442(data, doc, slot);
  }

  /** Within the Kindergeld-number group, part `j` is the final value of its slot when the widget exists. */
  lemma KgGroupFinal(parts: seq<string>, doc: Doc, j: nat)
    requires |parts| == 12 && j < 12
    ensures Final(KgWrites(parts, doc, 0), KgSlots[j]) == if Present(doc, KgSlots[j]) then Some(SetText(parts[j])) else None
  {
    var kg := KgWrites(parts, doc, 0);
    forall e | e in kg && e.0 == KgSlots[j] ensures e.1 == SetText(parts[j]) {
      var i :| 0 <= i < 12 && e == (KgSlots[i], SetText(parts[i])) && Present(doc, KgSlots[i]);
      KgSlotsDistinct(i, j);
    }
    FinalOfUniform(kg, KgSlots[j], SetText(parts[j]));
  }

  /** The text entries name eleven different slots. */
  lemma TextEntriesKeys(data: PdfData)
    ensures forall a, b :: a in TextEntries(data) && b in TextEntries(data) && a.0 == b.0 ==> a == b
  {
    var es := TextEntries(data);
    assert forall i, j :: 0 <= i < j < |es| ==> es[i].0 != es[j].0;
  }

  /** A text slot's slot name belongs to no other group. */
  lemma TextSlotElsewhere(slot: string)
    requires slot in TextSlots
    ensures !KgNamed(slot) && slot !in FsSlots
    ensures slot != "anz_anlagen" && slot != "kh_ist_antragsteller" && slot != "kh_andere_person"
  {
  }

  /** Within the text group, each entry's slot ends with its text, if it is written at all. */
  lemma TextGroupFinal(data: PdfData, doc: Doc, k: string, v: string)
    requires (k, v) in TextEntries(data)
    ensures Final(TextGroup(data, doc), k)
         == if v != "" && Present(doc, k) && KindAt(doc, k) in TextKinds then Some(SetText(v)) else None
  {
    TextEntriesKeys(data);
    var tx := TextWrites(TextEntries(data), doc);
    forall e | e in tx && e.0 == k ensures e.1 == SetText(v) {
      assert (e.0, e.1.value) in TextEntries(data);
    }
    FinalOfUniform(tx, k, SetText(v));
  }

  /**
   Each `mapping_text` entry ends up in its widget exactly when the text is
   non-empty and the widget exists and takes text; otherwise the widget is
   left as it was.
   */
  lemma TextWritten(data: PdfData, doc: Doc, k: string, v: string)
    requires (k, v) in TextEntries(data)
    ensures Final(Fill442(data, doc), k)
         == if v != "" && Present(doc, k) && KindAt(doc, k) in TextKinds then Some(SetText(v)) else None
  {
    TextEntriesSlots(data);
    TextSlotElsewhere(k);
    AnzWritesSlots(data, doc, k);
    MaritalWritesSlots(data, doc, k);
    KgWritesSlots(data, doc, k);
    KhWritesSlots(data, doc, k);
    TextGroupFinal(data, doc, k, v);
    FinalFill442(data, doc, k);
  }

  /**
   The account holder's name: the applicant's first and last name joined and
   stripped when `kh` is "antragsteller" in any case, else `kh_name`.
   */
  lemma AccountHolderName(data: PdfData, doc: Doc)
    ensures (var v := if Lower(data.kh) == "antragsteller" then Strip(data.firstName + " " + data.lastName) else data.khName;
             Final(Fill442(data, doc), "kontoinhaber")
             == if v != "" && Present(doc, "kontoinhaber") && KindAt(doc, "kontoinhaber") in TextKinds then Some(SetText(v)) else None)
  {
    var v := if Lower(data.kh) == "antragsteller" then Strip(data.firstName + " " + data.lastName) else data.khName;
    assert TextEntries(data)[9] == ("kontoinhaber", v);
    TextWritten(data, doc, "kontoinhaber", v);
  }

  lemma AnzElsewhere()
    ensures !KgNamed("anz_anlagen") && "anz_anlagen" !in TextSlots && "anz_anlagen" !in FsSlots
  {
  }

  /** The attachment count is written when non-empty and its widget exists. */
  lemma AttachmentsWritten(data: PdfData, doc: Doc)
    ensures Final(Fill442(data, doc), "anz_anlagen")
         == if data.anzAnlagen != "" && Present(doc, "anz_anlagen") then Some(SetText(data.anzAnlagen)) else None
  {
    var slot := "anz_anlagen";
    AnzElsewhere();
    AnzGroupFinal(data, doc);
    TextWritesSlots(data, doc, slot);
    MaritalWritesSlots(data, doc, slot);
    KgWritesSlots(data, doc, slot);
    KhWritesSlots(data, doc, slot);
    FinalFill442(data, doc, slot);
  }

  lemma AnzGroupFinal(data: PdfData, doc: Doc)
    ensures Final(AnzGroup(data, doc), "anz_anlagen")
         == if data.anzAnlagen != "" && Present(doc, "anz_anlagen") then Some(SetText(data.anzAnlagen)) else None
  {
    assert AnzGroup(data, doc) == AnzWrites(data.anzAnlagen, doc);
  }

  /** The attachment-count group writes only its own slot. */
  lemma AnzWritesSlots(data: PdfData, doc: Doc, slot: string)
    requires slot != "anz_anlagen"
    ensures Final(AnzGroup(data, doc), slot).None?
  {
  }

  lemma FsElsewhere(slot: string)
    requires slot in FsSlots
    ensures !KgNamed(slot) && slot !in TextSlots
    ensures slot != "anz_anlagen" && slot != "kh_ist_antragsteller" && slot != "kh_andere_person"
  {
  }

  /** Every marital-status checkbox is the target of some `cb_map` label. */
  lemma FsListed(slot: string)
    requires slot in FsSlots
    ensures exists l :: (l, slot) in CbMap
  {
    if slot == "fs_ledig" { assert CbMap[0] == ("ledig", slot); }
    else if slot == "fs_verheiratet" { assert CbMap[1] == ("verheiratet", slot); }
    else if slot == "fs_geschieden" { assert CbMap[2] == ("geschieden", slot); }
    else if slot == "fs_verwitwet" { assert CbMap[3] == ("verwitwet", slot); }
    else if slot == "fs_aufgehoben" { assert CbMap[4] == ("aufgehoben", slot); }
    else { assert CbMap[5] == ("getrennt", slot); }
  }

  /** Within the marital group, a listed checkbox ends checked iff it is the target, if it is a checkbox at all. */
  lemma MaritalTargetFinal(target: string, doc: Doc, slot: string)
    requires slot in FsSlots
    ensures Final(MaritalWrites(CbMap, target, doc), slot)
         == if Present(doc, slot) && KindAt(doc, slot) == "checkbox" then Some(SetCheck(slot == target)) else None
  {
    var mr := MaritalWrites(CbMap, target, doc);
    FsListed(slot);
    FinalOfUniform(mr, slot, SetCheck(slot == target));
  }

  /**
   Each marital-status checkbox that exists as a checkbox is set, checked
   exactly when it is the one `cb_map` gives for the lower-cased status.
   */
  lemma MaritalChecked(data: PdfData, doc: Doc, slot: string)
    requires slot in FsSlots
    ensures Final(Fill442(data, doc), slot)
         == if Present(doc, slot) && KindAt(doc, slot) == "checkbox"
            then Some(SetCheck(slot == CbTarget(Lower(data.marital))))
            else None
  {
    FsElsewhere(slot);
    KgWritesSlots(data, doc, slot);
    AnzWritesSlots(data, doc, slot);
    TextWritesSlots(data, doc, slot);
    KhWritesSlots(data, doc, slot);
    MaritalTargetFinal(CbTarget(Lower(data.marital)), doc, slot);
    FinalFill442(data, doc, slot);
  }

  /** At most one marital-status checkbox ends up checked. */
  lemma AtMostOneMaritalChecked(data: PdfData, doc: Doc, a: string, b: string)
    requires a in FsSlots && b in FsSlots
    requires Final(Fill442(data, doc), a) == Some(SetCheck(true))
    requires Final(Fill442(data, doc), b) == Some(SetCheck(true))
    ensures a == b
  {
    MaritalChecked(data, doc, a);
    MaritalChecked(data, doc, b);
  }

  /** A status `cb_map` does not list leaves every marital-status checkbox unchecked or untouched. */
  lemma UnlistedMaritalUnchecked(data: PdfData, doc: Doc, slot: string)
    requires slot in FsSlots
    requires forall i :: 0 <= i < |CbMap| ==> CbMap[i].0 != Lower(data.marital)
    ensures Final(Fill442(data, doc), slot) != Some(SetCheck(true))
  {
    var target := CbTarget(Lower(data.marital));
    assert target == "" by {
      CbTargetUnlisted(Lower(data.marital));
    }
    FsNonEmpty(slot);
    MaritalChecked(data, doc, slot);
  }

  lemma FsNonEmpty(slot: string)
    requires slot in FsSlots
    ensures slot != ""
  {
  }

  /** A status no `cb_map` label matches has no target checkbox. */
  lemma CbTargetUnlisted(marital: string)
    requires forall i :: 0 <= i < |CbMap| ==> CbMap[i].0 != marital
    ensures CbTarget(marital) == ""
  {
  }

  /** "Dauernd getrennt lebend", in any case, checks the "getrennt" box. */
  lemma SeparatedChecked(data: PdfData, doc: Doc)
    requires Lower(data.marital) == "dauernd getrennt lebend"
    requires Present(doc, "fs_getrennt") && KindAt(doc, "fs_getrennt") == "checkbox"
    ensures Final(Fill442(data, doc), "fs_getrennt") == Some(SetCheck(true))
  {
    MaritalChecked(data, doc, "fs_getrennt");
  }

  /** Within the account-holder group, the two checkboxes get opposite states. */
  lemma KhGroupFinal(data: PdfData, doc: Doc)
    ensures Final(KhGroup(data, doc), "kh_ist_antragsteller")
         == if Present(doc, "kh_ist_antragsteller") then Some(SetCheck(Lower(data.kh) == "antragsteller")) else None
    ensures Final(KhGroup(data, doc), "kh_andere_person")
         == if Present(doc, "kh_andere_person") then Some(SetCheck(Lower(data.kh) != "antragsteller")) else None
  {
    assert KhGroup(data, doc) == KhWrites(Lower(data.kh), doc);
    KhFinal(Lower(data.kh) == "antragsteller", Present(doc, "kh_ist_antragsteller"), Present(doc, "kh_andere_person"));
  }

  /** The two account-holder writes, by whether each widget exists. */
  lemma KhFinal(self: bool, a: bool, b: bool)
    ensures var p := (if a then [("kh_ist_antragsteller", SetCheck(self))] else [])
                     + (if b then [("kh_andere_person", SetCheck(!self))] else []);
            && Final(p, "kh_ist_antragsteller") == (if a then Some(SetCheck(self)) else None)
            && Final(p, "kh_andere_person") == (if b then Some(SetCheck(!self)) else None)
  {
    var x: Plan := if a then [("kh_ist_antragsteller", SetCheck(self))] else [];
    var y: Plan := if b then [("kh_andere_person", SetCheck(!self))] else [];
    FinalAppend(x, y, "kh_ist_antragsteller");
    FinalAppend(x, y, "kh_andere_person");
  }

  lemma KhElsewhere(slot: string)
    requires slot == "kh_ist_antragsteller" || slot == "kh_andere_person"
    ensures !KgNamed(slot) && slot !in TextSlots && slot !in FsSlots && slot != "anz_anlagen"
  {
  }

  /**
   The account-holder checkboxes: "is the applicant" is checked exactly when
   `kh` is "antragsteller" in any case, "another person" exactly when it is
   not, each when its widget exists.
   */
  lemma AccountHolderChecked(data: PdfData, doc: Doc)
    ensures Final(Fill442(data, doc), "kh_ist_antragsteller")
         == if Present(doc, "kh_ist_antragsteller") then Some(SetCheck(Lower(data.kh) == "antragsteller")) else None
    ensures Final(Fill442(data, doc), "kh_andere_person")
         == if Present(doc, "kh_andere_person") then Some(SetCheck(Lower(data.kh) != "antragsteller")) else None
  {
    KhGroupFinal(data, doc);
    KhSlotWritten(data, doc, "kh_ist_antragsteller");
    KhSlotWritten(data, doc, "kh_andere_person");
  }

  /** Only the account-holder group writes the account-holder checkboxes. */
  lemma KhSlotWritten(data: PdfData, doc: Doc, slot: string)
    requires slot == "kh_ist_antragsteller" || slot == "kh_andere_person"
    ensures Final(Fill442(data, doc), slot) == Final(KhGroup(data, doc), slot)
  {
    KhElsewhere(slot);
    TextWritesSlots(data, doc, slot);
    MaritalWritesSlots(data, doc, slot);
    KgWritesSlots(data, doc, slot);
    AnzWritesSlots(data, doc, slot);
    FinalFill442(data, doc, slot);
  }

  /** When both account-holder checkboxes exist, exactly one of them ends up checked. */
  lemma ExactlyOneAccountHolder(data: PdfData, doc: Doc)
    requires Present(doc, "kh_ist_antragsteller") && Present(doc, "kh_andere_person")
    ensures (Final(Fill442(data, doc), "kh_ist_antragsteller") == Some(SetCheck(true)))
         != (Final(Fill442(data, doc), "kh_andere_person") == Some(SetCheck(true)))
  {
    AccountHolderChecked(data, doc);
  }

  // ---------------------------------------------------------------------------
  // fill_kindergeld: from a session to the fill_442 input
  // ---------------------------------------------------------------------------

  /** Python's `f"{v}"` for a stored value: a number is printed in decimal without leading zeros. */
  function Render(v: Value): (r: string)
    ensures v.Str? ==> r == v.s
    ensures v.Int? ==> IsDigitString(r) && ParseNat(r) == v.n
    ensures v.Int? ==> (|r| > 1 ==> r[0] != '0')
    ensures v.Bool? ==> (r == "True" <==> v.b) && (r == "False" <==> !v.b)
  {
    match v
    case Str(s) => s
    case Int(n) => ParseNatToString(n); NatToString(n)
    case Bool(b) => if b then "True" else "False"
  }

  /** `fields.get(key, "")` as it appears inside the address f-string. */
  function Rendered(fields: map<string, Value>, key: string): string {
    if key in fields then Render(fields[key]) else ""
  }

  /** The characters `.strip(", ")` removes. */
  const CommaSpace: set<char> := {',', ' '}

  /** The address line: street, postcode and city, with commas and spaces stripped from both ends. */
  function Address(street: string, plz: string, city: string): (r: string)
    ensures r != "" ==> r[0] !in CommaSpace && r[|r| - 1] !in CommaSpace
  {
    StripChars(street + ", " + plz + " " + city, CommaSpace)
  }

  /** A full address is kept as written, joined by ", " and " ". */
  lemma AddressFull(street: string, plz: string, city: string)
    requires street != "" && street[0] !in CommaSpace
    requires city != "" && city[|city| - 1] !in CommaSpace
    ensures Address(street, plz, city) == street + ", " + plz + " " + city
  {
    var s := street + ", " + plz + " " + city;
    assert s[0] == street[0] && s[|s| - 1] == city[|city| - 1];
    StripCharsUnchanged(s, CommaSpace);
  }

  /** Without a street the leading ", " goes: just postcode and city. */
  lemma AddressWithoutStreet(plz: string, city: string)
    requires plz != "" && plz[0] !in CommaSpace
    requires city != "" && city[|city| - 1] !in CommaSpace
    ensures Address("", plz, city) == plz + " " + city
  {
    var m := plz + " " + city;
    assert m[0] == plz[0] && m[|m| - 1] == city[|city| - 1];
    assert "" + ", " + plz + " " + city == ", " + m + "";
    StripCharsFrame(", ", m, "", CommaSpace);
  }

  /** Without a city the trailing " " goes: just street and postcode. */
  lemma AddressWithoutCity(street: string, plz: string)
    requires street != "" && street[0] !in CommaSpace
    requires plz != "" && plz[|plz| - 1] !in CommaSpace
    ensures Address(street, plz, "") == street + ", " + plz
  {
    var m := street + ", " + plz;
    assert m[0] == street[0] && m[|m| - 1] == plz[|plz| - 1];
    assert street + ", " + plz + " " + "" == "" + m + " ";
    StripCharsFrame("", m, " ", CommaSpace);
  }

  /** With nothing filled in, the address is empty rather than ",  ". */
  lemma AddressEmpty()
    ensures Address("", "", "") == ""
  {
    StripCharsFrame(",  ", "", "", CommaSpace);
    assert "" + ", " + "" + " " + "" == ",  " + "" + "";
  }

  /** `fields.get(key, "")` for a field used as text: a stored string reads as itself, an absent field as "", and anything else is unusable (None). */
  function TextField(fields: map<string, Value>, key: string): (r: Option<string>)
    ensures r.None? <==> key in fields && !fields[key].Str?
    ensures r == Some("") <== key !in fields
    ensures key in fields && fields[key].Str? ==> r == Some(fields[key].s)
  {
    if key !in fields then Some("")
    else match fields[key]
      case Str(s) => Some(s)
      case _ => None
  }

  /** The session's address line. */
  function AddressOf(fields: map<string, Value>): (r: string)
    ensures CommaTrimmed(r)
  {
    Address(Rendered(fields, "addr_street"), Rendered(fields, "addr_plz"), Rendered(fields, "addr_city"))
  }

  /** The applicant's full name as text, "" when absent or not a string. */
  function FullName(fields: map<string, Value>): string {
    TextField(fields, "full_name").GetOr("")
  }

  /**
   Python's `fill_kindergeld` up to the `fill_442` call: the `fill_442` input
   built from a finished session's fields and children. None when a field
   used as text holds a non-string value.
   */
  function FillKindergeld(fields: map<string, Value>, kids: seq<Kid>): (r: Option<PdfData>)
    ensures r.Some? <==> TextField(fields, "full_name").Some? && TextField(fields, "dob").Some?
                         && TextField(fields, "citizenship").Some? && TextField(fields, "marital").Some?
                         && TextField(fields, "iban").Some?
    ensures r.Some? ==> ApplicantPayload(r.value, FullName(fields), |kids|) && CommaTrimmed(r.value.address)
    ensures r.Some? ==> SessionTexts(r.value, fields)
  {
    var name := TextField(fields, "full_name");
    var dob := TextField(fields, "dob");
    var citizenship := TextField(fields, "citizenship");
    var marital := TextField(fields, "marital");
    var iban := TextField(fields, "iban");
    if name.None? || dob.None? || citizenship.None? || marital.None? || iban.None? then None
    else Some(Payload(FullName(fields), dob.value, citizenship.value, AddressOf(fields), marital.value, iban.value, |kids|))
  }

  /**
   The payload carries the session's own texts: birth date, citizenship,
   marital status and IBAN are the stored `dob`, `citizenship`, `marital` and
   `iban` strings ("" when absent), and the address is the session's address line.
   */
  predicate SessionTexts(data: PdfData, fields: map<string, Value>) {
    && TextField(fields, "dob") == Some(data.birthDate)
    && TextField(fields, "citizenship") == Some(data.citizenship)
    && TextField(fields, "marital") == Some(data.marital)
    && TextField(fields, "iban") == Some(data.iban)
    && data.address == AddressOf(fields)
  }

  /** Neither end of the text is a comma or a space. */
  predicate CommaTrimmed(s: string) {
    s == "" || (s[0] !in CommaSpace && s[|s| - 1] !in CommaSpace)
  }

  /**
   What `fill_kindergeld` fixes for every applicant: the applicant holds the
   account, there is no Kindergeld number, birth place or bank details, the
   attachment count is the number of children in decimal, and the first name
   is a single word, empty only for a blank full name.
   */
  predicate ApplicantPayload(data: PdfData, fullName: string, kidCount: nat) {
    && data.kh == "antragsteller" && data.khName == "" && data.kgParts == []
    && data.birthPlace == "" && data.bic == "" && data.bank == ""
    && data.anzAnlagen == NatToString(kidCount)
    && IsDigitString(data.anzAnlagen) && ParseNat(data.anzAnlagen) == kidCount
    && (forall k :: 0 <= k < |data.firstName| ==> data.firstName[k] !in Whitespace)
    && (data.firstName == "" <==> forall k :: 0 <= k < |fullName| ==> fullName[k] in Whitespace)
  }

  /** The payload built from the applicant's texts, the full name split at its first whitespace run. */
  function Payload(fullName: string, dob: string, citizenship: string, address: string, marital: string, iban: string,
                   kidCount: nat): (r: PdfData)
    ensures r.birthDate == dob && r.citizenship == citizenship && r.address == address
            && r.marital == marital && r.iban == iban
    ensures ApplicantPayload(r, fullName, kidCount)
  {
    var parts := SplitFirst(fullName);
    ParseNatToString(kidCount);
    PdfData(
      lastName := parts.1,
      firstName := parts.0,
      birthDate := dob,
      birthPlace := "",
      citizenship := citizenship,
      address := address,
      marital := marital,
      iban := iban,
      bic := "",
      bank := "",
      kh := "antragsteller",
      khName := "",
      kgParts := [],
      anzAnlagen := NatToString(kidCount))
  }

  /** A full name is split at the first whitespace run after its first word, however long that run and any leading whitespace are: the first word, and everything after the run. */
  lemma NameSplit(fields: map<string, Value>, kids: seq<Kid>, p: string, first: string, w: string, last: string)
    requires FillKindergeld(fields, kids).Some?
    requires "full_name" in fields && fields["full_name"] == Str(p + first + w + last)
    requires Blank(p) && Blank(w)
    requires first != "" && forall k :: 0 <= k < |first| ==> first[k] !in Whitespace
    requires last == "" || (w != "" && last[0] !in Whitespace)
    ensures FillKindergeld(fields, kids).value.firstName == first
    ensures FillKindergeld(fields, kids).value.lastName == last
  {
    SplitFirstJoin(p, first, w, last);
  }

  /** A one-word full name becomes the first name, with an empty last name. */
  lemma OneWordName(fields: map<string, Value>, kids: seq<Kid>, word: string)
    requires FillKindergeld(fields, kids).Some?
    requires "full_name" in fields && fields["full_name"] == Str(word)
    requires word != "" && forall k :: 0 <= k < |word| ==> word[k] !in Whitespace
    ensures FillKindergeld(fields, kids).value.firstName == word
    ensures FillKindergeld(fields, kids).value.lastName == ""
  {
    SplitFirstWord(word);
  }

  /** Street, postcode and city stored as strings make the address "street, postcode city". */
  lemma SessionAddress(fields: map<string, Value>, kids: seq<Kid>, street: string, plz: string, city: string)
    requires FillKindergeld(fields, kids).Some?
    requires "addr_street" in fields && fields["addr_street"] == Str(street)
    requires "addr_plz" in fields && fields["addr_plz"] == Str(plz)
    requires "addr_city" in fields && fields["addr_city"] == Str(city)
    requires street != "" && street[0] !in CommaSpace
    requires city != "" && city[|city| - 1] !in CommaSpace
    ensures FillKindergeld(fields, kids).value.address == street + ", " + plz + " " + city
  {
    assert AddressOf(fields) == Address(street, plz, city);
    AddressFull(street, plz, city);
  }

  /** A session without any address field gets an empty address. */
  lemma SessionWithoutAddress(fields: map<string, Value>, kids: seq<Kid>)
    requires FillKindergeld(fields, kids).Some?
    requires "addr_street" !in fields && "addr_plz" !in fields && "addr_city" !in fields
    ensures FillKindergeld(fields, kids).value.address == ""
  {
    AddressEmpty();
  }

  lemma LowerApplicant()
    ensures Lower("antragsteller") == "antragsteller"
  {
    LowerOfLower("antragsteller");
  }

  /**
   What `fill_kindergeld` does to the form, for every payload it builds (see
   `FillKindergeld`): no part of the Kindergeld number, the number of children
   as the attachment count, the applicant as account holder.
   */
  lemma KindergeldForm(data: PdfData, fullName: string, kidCount: nat, doc: Doc, j: nat)
    requires j < 12 && ApplicantPayload(data, fullName, kidCount)
    ensures Final(Fill442(data, doc), KgSlots[j]).None?
    ensures Final(Fill442(data, doc), "anz_anlagen")
         == if Present(doc, "anz_anlagen") then Some(SetText(NatToString(kidCount))) else None
    ensures Final(Fill442(data, doc), "kh_ist_antragsteller")
         == if Present(doc, "kh_ist_antragsteller") then Some(SetCheck(true)) else None
    ensures Final(Fill442(data, doc), "kh_andere_person")
         == if Present(doc, "kh_andere_person") then Some(SetCheck(false)) else None
  {
    LowerApplicant();
    KgPartsWritten(data, doc, j);
    AttachmentsWritten(data, doc);
    AccountHolderChecked(data, doc);
  }
}

=== FILE: orchestrator.dfy ===
/**
 The per-message dialogue step of the Kindergeld bot (app/orchestrator.py).
 A session walks the form's top-level field order, then asks for the number
 of children and a record per child, and finally hands the collected data to
 the PDF service. The step is a pure function from a session, the incoming
 text and the outcome of the delivery to the new session and a reply.
 */
module Orchestrator {
  import opened Wrappers
  import opened Text
  import opened Validators

  /** One user's session: the keys of Python's per-user state dictionary. */
  datatype State = State(
    form: string,
    fields: map<string, Value>,
    kids: seq<Kid>,
    phase: string,
    idx: nat,
    kidIdx: nat,
    lang: string)

  /** A form definition: the top-level field order and the field types (missing types read as "string"). */
  datatype FormDef = FormDef(order: seq<string>, types: map<string, string>)

  /**
   What a step answers. `Prompt` is a locale key with the child number the
   template is formatted with, if any; `Finished` and `RetryLater` are the
   fixed German texts of a successful and a failed finalisation; `Crashed` is
   an exception escaping the handler.
   */
  datatype Reply =
    | Prompt(key: string, child: Option<nat>)
    | Finished
    | RetryLater
    | Crashed

  /** What became of the PDF build and the WhatsApp upload when finalisation was attempted. */
  datatype Delivery = Delivered | DeliveryFailed

  /** The session after a step and the reply sent back. */
  datatype Turn = Turn(st: State, reply: Reply)

  /** The three locale tables, key to template. */
  datatype Catalogs = Catalogs(de: map<string, string>, en: map<string, string>, sq: map<string, string>)

  const KidFields: seq<string> :=
    ["kid_name", "kid_dob", "kid_taxid", "kid_relation", "kid_cohab", "kid_status", "kid_eu_benefit"]
  const KidTypes: seq<string> :=
    ["string", "date", "taxid", "enum_relation", "bool", "enum_kstatus", "bool"]

  // ---------------------------------------------------------------------------
  // Session store and locale lookup
  // ---------------------------------------------------------------------------

  /** The state a new user starts in. */
  function Fresh(): State {
    State("kindergeld", map[], [], "collect", 0, 0, "de")
  }

  /**
   Python's `ensure_state(user)`: the user's session, created fresh on first
   contact; every other user's session is left as it was.
   */
  function EnsureState(store: map<string, State>, user: string): (r: (map<string, State>, State))
    ensures r.0.Keys == store.Keys + {user}
    ensures forall u :: u in store ==> r.0[u] == store[u]
    ensures user in store ==> r.1 == store[user]
    ensures user !in store ==> r.1 == Fresh()
    ensures r.0[user] == r.1
  {
    if user in store then (store, store[user]) else (store[user := Fresh()], Fresh())
  }

  /** The table `t` reads for a language. */
  function Table(c: Catalogs, lang: string): map<string, string> {
    if lang == "de" then c.de else if lang == "en" then c.en else if lang == "sq" then c.sq else c.de
  }

  /**
   Python's `t(lang, key)` before formatting: the template for `key` in the
   table of `lang`, German for an unknown language, and the key itself when
   the table has no such entry.
   */
  function T(c: Catalogs, lang: string, key: string): (r: string)
    ensures lang !in {"de", "en", "sq"} ==> (key in c.de ==> r == c.de[key]) && (key !in c.de ==> r == key)
    ensures lang == "en" ==> r == (if key in c.en then c.en[key] else key)
    ensures lang == "sq" ==> r == (if key in c.sq then c.sq[key] else key)
    ensures lang == "de" ==> r == (if key in c.de then c.de[key] else key)
  {
    var table := Table(c, lang);
    if key in table then table[key] else key
  }

  // ---------------------------------------------------------------------------
  // Python semantics the step relies on
  // ---------------------------------------------------------------------------

  /** Python truthiness of a stored value. */
  predicate Truthy(v: Value) {
    match v
    case Bool(b) => b
    case Int(n) => n != 0
    case Str(s) => s != ""
  }

  /** Python's `n < v` for an `int` and a stored value; `None` is the TypeError raised for a `str`. */
  function Less(n: nat, v: Value): (r: Option<bool>)
    ensures r.None? <==> v.Str?
    ensures v.Int? ==> r == Some(n < v.n)
    ensures v.Bool? ==> r == Some(n == 0 && v.b)
  {
    match Numeric(v)
    case None => None
    case Some(m) => Some(n < m)
  }

  /** `form["types"].get(field, "string")`. */
  function TypeOf(form: FormDef, field: string): string {
    if field in form.types then form.types[field] else "string"
  }

  /** The message text read under each field type: `normalize_value(ftype, text)` as a function of `ftype`. */
  function Reading(text: string): string -> Option<Value> {
    ftype => NormalizeValue(ftype, text)
  }

  /** Whether the lower-cased text asks to switch to the Wohngeld form. */
  predicate AsksWohngeld(text: string) {
    Contains(Lower(text), "wohngeld")
  }

  // ---------------------------------------------------------------------------
  // Top-level fields
  // ---------------------------------------------------------------------------

  /** Where the top-level loop stopped: the fields, the index and the reply, if the loop returned one. */
  datatype Loop = Loop(fields: map<string, Value>, idx: nat, reply: Option<Reply>)

  /**
   Where the `while` loop's skipping of present fields stops: the first index
   at or after `idx` whose field is absent, or the end of the order.
   */
  function NextAbsent(order: seq<string>, fields: map<string, Value>, idx: nat): (j: nat)
    ensures idx <= j
    ensures idx <= |order| ==> j <= |order|
    ensures j < |order| ==> order[j] !in fields
    ensures j >= |order| ==> j == if idx <= |order| then |order| else idx
    ensures forall k :: idx <= k < j ==> order[k] in fields
    decreases |order| - idx
  {
    if idx >= |order| || order[idx] !in fields then idx else NextAbsent(order, fields, idx + 1)
  }

  /**
   The `while idx < len(order)` loop, given `norm`, the message text read
   under each field type (`normalize_value(ftype, text)`). Present fields are
   skipped; the first absent one consumes the text if it normalises under its
   type, and the loop then asks for the next field, or leaves without a reply
   after the last one. A text that does not normalise is asked for again, the
   index resting on that field.
   */
  function TopLevel(form: FormDef, fields: map<string, Value>, idx: nat, norm: string -> Option<Value>): (r: Loop)
    ensures idx <= r.idx
    ensures idx <= |form.order| ==> r.idx <= |form.order|
    ensures r.reply.None? <==> r.idx >= |form.order|
    ensures r.reply.Some? ==> r.reply.value == Prompt("ask_" + form.order[r.idx], None)
    ensures forall k :: k in fields ==> k in r.fields && r.fields[k] == fields[k]
    ensures forall j :: idx <= j < r.idx && j < |form.order| ==> form.order[j] in r.fields
    ensures r.fields != fields ==>
              && idx < r.idx <= |form.order|
              && var k := form.order[r.idx - 1];
              && k !in fields && k in r.fields
              && r.fields == fields[k := r.fields[k]]
              && norm(TypeOf(form, k)) == Some(r.fields[k])
    ensures r.fields == fields && r.reply.Some? ==>
              form.order[r.idx] !in fields && norm(TypeOf(form, form.order[r.idx])).None?
  {
    var j := NextAbsent(form.order, fields, idx);
    if j >= |form.order| then Loop(fields, j, None)
    else Consume(form.order, fields, j, norm(TypeOf(form, form.order[j])))
  }

  /**
   The loop body on the first absent field `order[j]`, given what its text
   normalised to. The index never moves past the next field; a prompt always
   asks for the field the new index points at, and there is no prompt only
   once the order is used up; at most `order[j]` is added to the fields and
   every other field keeps its value.
   */
  function Consume(order: seq<string>, fields: map<string, Value>, j: nat, v: Option<Value>): (r: Loop)
    requires j < |order|
    ensures j <= r.idx <= j + 1 && r.idx <= |order|
    ensures r.reply.Some? ==> r.idx < |order| && r.reply.value == Prompt("ask_" + order[r.idx], None)
    ensures r.reply.None? ==> r.idx == |order|
    ensures r.fields.Keys <= fields.Keys + {order[j]}
    ensures forall k :: k in fields && k != order[j] ==> k in r.fields && r.fields[k] == fields[k]
    ensures v.None? ==> r == Loop(fields, j, Some(Prompt("ask_" + order[j], None)))
    ensures v.Some? ==> r.fields == fields[order[j] := v.value] && r.idx == j + 1
    ensures v.Some? ==> r.reply == if j + 1 < |order| then Some(Prompt("ask_" + order[j + 1], None)) else None
  {
    match v
    case None => Loop(fields, j, Some(Prompt("ask_" + order[j], None)))
    case Some(value) =>
      var stored := fields[order[j] := value];
      if j + 1 < |order| then Loop(stored, j + 1, Some(Prompt("ask_" + order[j + 1], None)))
      else Loop(stored, j + 1, None)
  }

  // ---------------------------------------------------------------------------
  // Child records
  // ---------------------------------------------------------------------------

  /** The position of the first child field at or after `j` that `kid` lacks. */
  function FirstMissing(kid: Kid, j: nat): (r: Option<nat>)
    requires j <= |KidFields|
    ensures r.Some? ==> j <= r.value < |KidFields| && KidFields[r.value] !in kid
    ensures r.Some? ==> forall l :: j <= l < r.value ==> KidFields[l] in kid
    ensures r.None? <==> forall l :: j <= l < |KidFields| ==> KidFields[l] in kid
    decreases |KidFields| - j
  {
    if j == |KidFields| then None
    else if KidFields[j] !in kid then Some(j)
    else FirstMissing(kid, j + 1)
  }

  /** The open child record after the `for kfield, ktype in zip(...)` loop, and the reply, if the loop returned one. */
  datatype KidFill = KidFill(kid: Kid, reply: Option<Reply>)

  /**
   The child-field loop from position `j`: the first missing field consumes
   the text if it normalises, and the reply asks for the next missing field of
   the same child `i`; when the record is then complete it asks for the name of
   child `next` if `more` children are due, and otherwise leaves without a
   reply.
   */
  function FillKid(kid: Kid, norm: string -> Option<Value>, i: nat, next: nat, more: bool, j: nat): (r: KidFill)
    requires j <= |KidFields|
    ensures FirstMissing(kid, j).None? ==> r == KidFill(kid, None)
    ensures FirstMissing(kid, j).Some? ==>
              var l := FirstMissing(kid, j).value;
              match norm(KidTypes[l])
              case None => r == KidFill(kid, Some(Prompt("ask_" + KidFields[l], Some(i))))
              case Some(v) =>
                && r.kid == kid[KidFields[l] := v]
                && (FirstMissing(r.kid, 0).Some? ==>
                      r.reply == Some(Prompt("ask_" + KidFields[FirstMissing(r.kid, 0).value], Some(i))))
                && (FirstMissing(r.kid, 0).None? ==>
                      r.reply == if more then Some(Prompt("ask_kid_name", Some(next))) else None)
    decreases |KidFields| - j
  {
    if j == |KidFields| then KidFill(kid, None)
    else if KidFields[j] !in kid then
      match norm(KidTypes[j])
      case None => KidFill(kid, Some(Prompt("ask_" + KidFields[j], Some(i))))
      case Some(v) =>
        var filled := kid[KidFields[j] := v];
        match FirstMissing(filled, 0)
        case Some(nf) => KidFill(filled, Some(Prompt("ask_" + KidFields[nf], Some(i))))
        case None =>
          if more then KidFill(filled, Some(Prompt("ask_kid_name", Some(next))))
          else FillKid(filled, norm, i, next, more, j + 1)
    else FillKid(kid, norm, i, next, more, j + 1)
  }

  // ---------------------------------------------------------------------------
  // The step
  // ---------------------------------------------------------------------------

  /**
   Completeness and finalisation: a missing key is asked for; a complete
   session is handed to the PDF service, and the phase becomes "done" only
   when the delivery succeeds.
   */
  function Finish(st: State, d: Delivery): (r: Turn)
    ensures r.reply.Prompt? <==> !IsComplete(st.form, st.fields, st.kids).0
    ensures r.reply.Prompt? ==> r == Turn(st, Prompt("ask_" + IsComplete(st.form, st.fields, st.kids).1[0], None))
    ensures r.reply == Finished <==> IsComplete(st.form, st.fields, st.kids).0 && d == Delivered
    ensures r.reply == Finished ==> r.st == st.(phase := "done")
    ensures r.reply != Finished ==> r.st == st
    ensures !r.reply.Crashed?
  {
    var (ready, missing) := IsComplete(st.form, st.fields, st.kids);
    if !ready then Turn(st, Prompt("ask_" + missing[0], None))
    else match d
      case Delivered => Turn(st.(phase := "done"), Finished)
      case DeliveryFailed => Turn(st, RetryLater)
  }

  /**
   The Kindergeld child section: the child count is asked for first; then,
   while fewer records than the count exist, each message opens a new record
   (the guard `len(kids) == 0 or len(kids) < i` holds for every `i =
   len(kids) + 1`) and that record receives at most the child's name.
   */
  function KidPhase(st: State, norm: string -> Option<Value>, d: Delivery): (r: Turn)
    ensures "kid_count" !in st.fields ==> r.st.kids == st.kids
    ensures "kid_count" !in st.fields && norm("int").Some? ==>
              && r.st == st.(fields := st.fields["kid_count" := norm("int").value], kidIdx := 0)
              && r.reply == Prompt("ask_kid_name", Some(1))
    ensures "kid_count" !in st.fields && norm("int").None? ==>
              r == Turn(st, Prompt("ask_kid_count", None))
    ensures "kid_count" in st.fields ==> r.st.fields == st.fields
    ensures "kid_count" in st.fields && st.fields["kid_count"].Str? ==> r == Turn(st, Crashed)
    ensures "kid_count" in st.fields && Less(|st.kids|, st.fields["kid_count"]) == Some(false) ==> r == Finish(st, d)
    ensures "kid_count" in st.fields && Less(|st.kids|, st.fields["kid_count"]) == Some(true) ==>
              && |r.st.kids| == |st.kids| + 1
              && r.st.kids[..|st.kids|] == st.kids
              && r.st.kids[|st.kids|].Keys <= {"kid_name"}
              && ("kid_name" in r.st.kids[|st.kids|] <==> norm("string").Some?)
              && r.st == st.(kids := r.st.kids)
              && r.reply == Prompt(if norm("string").Some? then "ask_kid_dob" else "ask_kid_name",
                                   Some(|st.kids| + 1))
  {
    if "kid_count" !in st.fields then
      match norm("int")
      case None => Turn(st, Prompt("ask_kid_count", None))
      case Some(v) => Turn(st.(fields := st.fields["kid_count" := v], kidIdx := 0), Prompt("ask_kid_name", Some(1)))
    else
      var count := st.fields["kid_count"];
      var i := |st.kids| + 1;
      match Less(|st.kids|, count)
      case None => Turn(st, Crashed)
      case Some(false) => Finish(st, d)
      case Some(true) =>
        var kids := if |st.kids| == 0 || |st.kids| < i then st.kids + [map[]] else st.kids;
        var fill := FillKid(kids[|kids| - 1], norm, i, |kids| + 1, Less(|kids|, count) == Some(true), 0);
        var st' := st.(kids := kids[..|kids| - 1] + [fill.kid]);
        NewRecordFill(norm, i, |kids| + 1, Less(|kids|, count) == Some(true));
        if fill.reply.Some? then Turn(st', fill.reply.value) else Finish(st', d)
  }

  /** What the child-field loop does to a freshly opened, empty record. */
  lemma NewRecordFill(norm: string -> Option<Value>, i: nat, next: nat, more: bool)
    ensures var r := FillKid(map[], norm, i, next, more, 0);
            && r.kid.Keys <= {"kid_name"}
            && ("kid_name" in r.kid <==> norm("string").Some?)
            && r.reply == Some(Prompt(if norm("string").Some? then "ask_kid_dob" else "ask_kid_name", Some(i)))
  {
    var empty: Kid := map[];
    assert FirstMissing(empty, 0) == Some(0);
    assert KidTypes[0] == "string" && KidFields[0] == "kid_name" && KidFields[1] == "kid_dob";
    assert "ask_" + "kid_name" == "ask_kid_name" && "ask_" + "kid_dob" == "ask_kid_dob";
    match norm("string")
    case None =>
    case Some(v) =>
      var named := empty["kid_name" := v];
      assert FirstMissing(named, 0) == Some(1) by {
        assert FirstMissing(named, 0) == FirstMissing(named, 1);
      }
  }

  /** The part of the step after the first-field gate: top-level loop, child section, finalisation. */
  function Collect(form: FormDef, st: State, norm: string -> Option<Value>, d: Delivery): (r: Turn)
    ensures st.idx <= r.st.idx
    ensures r.st.form == st.form && r.st.lang == st.lang
    ensures forall k :: k in st.fields ==> k in r.st.fields && r.st.fields[k] == st.fields[k]
    ensures r.reply == Finished ==> IsComplete(r.st.form, r.st.fields, r.st.kids).0 && d == Delivered && r.st.phase == "done"
    ensures r.reply != Finished ==> r.st.phase == st.phase
  {
    var top := TopLevel(form, st.fields, st.idx, norm);
    var st' := st.(fields := top.fields, idx := top.idx);
    if top.reply.Some? then Turn(st', top.reply.value)
    else if st'.form == "kindergeld" then KidPhase(st', norm, d)
    else Finish(st', d)
  }

  /**
   The first-field gate of `handle_message`: at index 0, `order[0]` is looked
   up, which raises IndexError on an empty order, and an unset or falsy first
   field stops the step before the text is read.
   */
  predicate AtGate(form: FormDef, st: State) {
    st.idx == 0 && (|form.order| == 0 || !(form.order[0] in st.fields && Truthy(st.fields[form.order[0]])))
  }

  /**
   Python's `handle_message` on one session: the language is recorded, a
   "wohngeld" text resets the session to the Wohngeld form, at index 0 an
   empty field order raises IndexError, and while the first field is unset at
   index 0 the text is not consumed. Past index 0 the gate is short-circuited
   and `order[0]` is never read.
   */
  function Step(form: FormDef, st: State, text: string, lang: string, d: Delivery): (r: Turn)
    ensures r.st.lang == lang
    ensures AsksWohngeld(text) ==>
              r == Turn(State("wohngeld", map[], [], "collect", 0, 0, lang), Prompt("switched_form", None))
    ensures !AsksWohngeld(text) ==> st.idx <= r.st.idx && r.st.form == st.form
    ensures !AsksWohngeld(text) ==> forall k :: k in st.fields ==> k in r.st.fields && r.st.fields[k] == st.fields[k]
    ensures !AsksWohngeld(text) && st.idx == 0 && |form.order| == 0 ==> r == Turn(st.(lang := lang), Crashed)
    ensures !AsksWohngeld(text) && !AtGate(form, st) ==> r == Collect(form, st.(lang := lang), Reading(text), d)
    ensures !AsksWohngeld(text) && |form.order| > 0 && st.idx == 0
              && !(form.order[0] in st.fields && Truthy(st.fields[form.order[0]])) ==>
              r == Turn(st.(lang := lang), Prompt("ask_" + form.order[0], None))
    ensures r.reply == Finished ==> IsComplete(r.st.form, r.st.fields, r.st.kids).0 && d == Delivered && r.st.phase == "done"
    ensures r.reply != Finished ==> r.st.phase == (if AsksWohngeld(text) then "collect" else st.phase)
  {
    var st := st.(lang := lang);
    if AsksWohngeld(text) then
      Turn(st.(form := "wohngeld", fields := map[], kids := [], idx := 0, kidIdx := 0, phase := "collect"),
           Prompt("switched_form", None))
    else if AtGate(form, st) then
      if |form.order| == 0 then Turn(st, Crashed) else Turn(st, Prompt("ask_" + form.order[0], None))
    else Collect(form, st, Reading(text), d)
  }

  /**
   Python's `handle_message(user, text, lang)` on the whole store: the user's
   session is created if needed and replaced by the stepped one; an escaping
   exception leaves the session as mutated so far.
   */
  function HandleMessage(store: map<string, State>, form: FormDef, user: string, text: string, lang: string, d: Delivery)
    : (r: (map<string, State>, Reply))
    ensures r.0.Keys == store.Keys + {user}
    ensures forall u :: u in store && u != user ==> r.0[u] == store[u]
    ensures var st := if user in store then store[user] else Fresh();
            r.0[user] == Step(form, st, text, lang, d).st && r.1 == Step(form, st, text, lang, d).reply
  {
    var (store', st) := EnsureState(store, user);
    var turn := Step(form, st, text, lang, d);
    (store'[user := turn.st], turn.reply)
  }

  // ---------------------------------------------------------------------------
  // Conversations
  // ---------------------------------------------------------------------------

  /** One incoming message with the language detected for it and the delivery outcome finalisation would meet. */
  datatype Message = Message(text: string, lang: string, delivery: Delivery)

  /** A session fed a sequence of messages: the final session and the replies in order. */
  function Run(form: FormDef, st: State, msgs: seq<Message>): (r: (State, seq<Reply>))
    ensures |r.1| == |msgs|
    decreases |msgs|
  {
    if |msgs| == 0 then (st, [])
    else
      var turn := Step(form, st, msgs[0].text, msgs[0].lang, msgs[0].delivery);
      var rest := Run(form, turn.st, msgs[1..]);
      (rest.0, [turn.reply] + rest.1)
  }

  /** A session that holds nothing: index 0, no fields, no child records. */
  predicate Empty(st: State) {
    st.idx == 0 && st.fields == map[] && st.kids == []
  }

  /**
   An empty session stays empty whatever it is sent: at index 0 the first
   field is unset, so the text is never consumed, and the replies are the
   first prompt, the Wohngeld switch, or a crash on an empty order.
   */
  lemma {:induction false} EmptySessionNeverProgresses(form: FormDef, st: State, msgs: seq<Message>)
    requires Empty(st)
    ensures Empty(Run(form, st, msgs).0)
    ensures forall k :: 0 <= k < |msgs| ==>
              || Run(form, st, msgs).1[k] == Crashed
              || Run(form, st, msgs).1[k] == Prompt("switched_form", None)
              || (|form.order| > 0 && Run(form, st, msgs).1[k] == Prompt("ask_" + form.order[0], None))
    decreases |msgs|
  {
    if |msgs| > 0 {
      var turn := Step(form, st, msgs[0].text, msgs[0].lang, msgs[0].delivery);
      assert Empty(turn.st);
      EmptySessionNeverProgresses(form, turn.st, msgs[1..]);
      var r := Run(form, st, msgs);
      var rest := Run(form, turn.st, msgs[1..]);
      assert r.1 == [turn.reply] + rest.1;
      forall k | 1 <= k < |msgs|
        ensures r.1[k] == rest.1[k - 1]
      {
      }
    }
  }

  /** A new user's session never gets past the first field. */
  lemma FreshSessionNeverProgresses(form: FormDef, msgs: seq<Message>)
    ensures Run(form, Fresh(), msgs).0.fields == map[]
    ensures Run(form, Fresh(), msgs).0.idx == 0
  {
    EmptySessionNeverProgresses(form, Fresh(), msgs);
  }

  // ---------------------------------------------------------------------------
  // Session invariant
  // ---------------------------------------------------------------------------

  /**
   What every reachable session satisfies: the index stays within the order
   and every field before it is present; there are no child records before
   the child count is known, never more than the count, none at all for a
   text count; and a record holds at most the child's name.
   */
  predicate Inv(form: FormDef, st: State) {
    && st.idx <= |form.order|
    && (forall j :: 0 <= j < st.idx ==> form.order[j] in st.fields)
    && ("kid_count" !in st.fields ==> st.kids == [])
    && ("kid_count" in st.fields ==>
          match Numeric(st.fields["kid_count"])
          case None => st.kids == []
          case Some(n) => |st.kids| <= n)
    && (forall k :: 0 <= k < |st.kids| ==> st.kids[k].Keys <= {"kid_name"})
  }

  lemma FreshInv(form: FormDef)
    ensures Inv(form, Fresh())
  {
  }

  /** Finalisation changes at most the phase, so it keeps the invariant. */
  lemma FinishKeepsInv(form: FormDef, st: State, d: Delivery)
    requires Inv(form, st)
    ensures Inv(form, Finish(st, d).st)
  {
    var r := Finish(st, d);
    assert r.st == st || r.st == st.(phase := "done");
  }

  /** The child section keeps the invariant: the count is stored once, a record is opened only below the count. */
  lemma KidPhaseKeepsInv(form: FormDef, st: State, norm: string -> Option<Value>, d: Delivery)
    requires Inv(form, st)
    ensures Inv(form, KidPhase(st, norm, d).st)
  {
    var r := KidPhase(st, norm, d);
    if "kid_count" !in st.fields {
      assert st.kids == [] && r.st.kids == [];
      assert forall k :: k in st.fields ==> k in r.st.fields;
    } else {
      var count := st.fields["kid_count"];
      match Less(|st.kids|, count)
      case None =>
      case Some(false) => FinishKeepsInv(form, st, d);
      case Some(true) =>
        assert Numeric(count).Some? && |st.kids| < Numeric(count).value;
        NameOnlyAppend(st.kids, r.st.kids);
    }
  }

  /** Appending a name-only record to name-only records keeps every record name-only. */
  lemma NameOnlyAppend(kids: seq<Kid>, kids': seq<Kid>)
    requires forall k :: 0 <= k < |kids| ==> kids[k].Keys <= {"kid_name"}
    requires |kids'| == |kids| + 1 && kids'[..|kids|] == kids && kids'[|kids|].Keys <= {"kid_name"}
    ensures forall k :: 0 <= k < |kids'| ==> kids'[k].Keys <= {"kid_name"}
  {
    forall k | 0 <= k < |kids'|
      ensures kids'[k].Keys <= {"kid_name"}
    {
      if k < |kids| {
        assert kids'[k] == kids'[..|kids|][k];
      }
    }
  }

  /** The top-level loop keeps the invariant: it moves the index only over present or newly stored fields. */
  lemma TopLevelKeepsInv(form: FormDef, st: State, norm: string -> Option<Value>)
    requires Inv(form, st)
    ensures var top := TopLevel(form, st.fields, st.idx, norm);
            Inv(form, st.(fields := top.fields, idx := top.idx))
  {
    var top := TopLevel(form, st.fields, st.idx, norm);
    var st' := st.(fields := top.fields, idx := top.idx);
    assert "kid_count" in st.fields ==> "kid_count" in st'.fields && st'.fields["kid_count"] == st.fields["kid_count"];
    if "kid_count" !in st.fields && "kid_count" in st'.fields {
      assert st.kids == [];
    }
  }

  /** The part of the step after the gate keeps the invariant. */
  lemma CollectKeepsInv(form: FormDef, st: State, norm: string -> Option<Value>, d: Delivery)
    requires Inv(form, st)
    ensures Inv(form, Collect(form, st, norm, d).st)
  {
    var top := TopLevel(form, st.fields, st.idx, norm);
    var st' := st.(fields := top.fields, idx := top.idx);
    TopLevelKeepsInv(form, st, norm);
    if top.reply.Some? {
    } else if st'.form == "kindergeld" {
      KidPhaseKeepsInv(form, st', norm, d);
    } else {
      FinishKeepsInv(form, st', d);
    }
  }

  /** One step keeps the session invariant. */
  lemma StepKeepsInv(form: FormDef, st: State, text: string, lang: string, d: Delivery)
    requires Inv(form, st)
    ensures Inv(form, Step(form, st, text, lang, d).st)
  {
    var st1 := st.(lang := lang);
    if !AsksWohngeld(text) && !AtGate(form, st1) {
      assert Step(form, st, text, lang, d) == Collect(form, st1, Reading(text), d);
      CollectKeepsInv(form, st1, Reading(text), d);
    }
  }

  /** Every session reached from an invariant one keeps the invariant. */
  lemma {:induction false} RunKeepsInv(form: FormDef, st: State, msgs: seq<Message>)
    requires Inv(form, st)
    ensures Inv(form, Run(form, st, msgs).0)
    decreases |msgs|
  {
    if |msgs| > 0 {
      StepKeepsInv(form, st, msgs[0].text, msgs[0].lang, msgs[0].delivery);
      RunKeepsInv(form, Step(form, st, msgs[0].text, msgs[0].lang, msgs[0].delivery).st, msgs[1..]);
    }
  }

  /**
   From any session satisfying `Inv` (a new user's session is one, see
   `FreshInv`), the child records never outnumber the child count, there are
   none before the count is stored, and each holds at most a name.
   */
  lemma ReachableKids(form: FormDef, st: State, msgs: seq<Message>)
    requires Inv(form, st)
    ensures var st' := Run(form, st, msgs).0;
            && (forall k :: 0 <= k < |st'.kids| ==> st'.kids[k].Keys <= {"kid_name"})
            && ("kid_count" !in st'.fields ==> st'.kids == [])
            && ("kid_count" in st'.fields && st'.fields["kid_count"].Int? ==> |st'.kids| <= st'.fields["kid_count"].n)
  {
    RunKeepsInv(form, st, msgs);
  }

  // ---------------------------------------------------------------------------
  // Properties of one step
  // ---------------------------------------------------------------------------

  /** Every value stored after the gate is the normaliser's reading of the text; see `StepStoresNormalised`. */
  lemma CollectStoresNormalised(form: FormDef, st: State, norm: string -> Option<Value>, d: Delivery)
    requires Inv(form, st)
    ensures var r := Collect(form, st, norm, d);
            forall k :: k in r.st.fields && k !in st.fields ==>
              || (k in form.order && norm(TypeOf(form, k)) == Some(r.st.fields[k]))
              || (k == "kid_count" && k !in form.order && norm("int") == Some(r.st.fields[k]))
    ensures var r := Collect(form, st, norm, d);
            forall k1, k2 ::
              (k1 in r.st.fields && k1 !in st.fields && k1 in form.order
               && k2 in r.st.fields && k2 !in st.fields && k2 in form.order) ==> k1 == k2
  {
    var top := TopLevel(form, st.fields, st.idx, norm);
    var st' := st.(fields := top.fields, idx := top.idx);
    TopLevelAddsOne(form, st.fields, st.idx, norm);
    if top.reply.None? && st'.form == "kindergeld" && "kid_count" !in st'.fields {
      TopLevelKeepsInv(form, st, norm);
      FilledOrderLacksKidCount(form, st');
      assert Collect(form, st, norm, d).st.fields.Keys <= top.fields.Keys + {"kid_count"};
    }
  }

  /** The top-level loop adds at most one key, a field of the order holding the normaliser's reading. */
  lemma TopLevelAddsOne(form: FormDef, fields: map<string, Value>, idx: nat, norm: string -> Option<Value>)
    ensures var top := TopLevel(form, fields, idx, norm);
            forall k :: k in top.fields && k !in fields ==>
              && k in form.order && norm(TypeOf(form, k)) == Some(top.fields[k])
              && forall k2 :: k2 in top.fields && k2 !in fields ==> k2 == k
  {
  }

  /** With every field of the order stored and no child count, the child count is not a field of the order. */
  lemma FilledOrderLacksKidCount(form: FormDef, st: State)
    requires Inv(form, st) && |form.order| <= st.idx && "kid_count" !in st.fields
    ensures "kid_count" !in form.order
  {
    forall j | 0 <= j < |form.order|
      ensures form.order[j] != "kid_count"
    {
      assert form.order[j] in st.fields;
    }
  }

  /**
   Every value a step stores is the normaliser's reading of the text: under
   the field's declared type for an order field, under "int" for the child
   count; and the top-level loop stores at most one order field.
   */
  lemma StepStoresNormalised(form: FormDef, st: State, text: string, lang: string, d: Delivery)
    requires Inv(form, st) && !AsksWohngeld(text)
    ensures var r := Step(form, st, text, lang, d);
            forall k :: k in r.st.fields && k !in st.fields ==>
              || (k in form.order && NormalizeValue(TypeOf(form, k), text) == Some(r.st.fields[k]))
              || (k == "kid_count" && k !in form.order && NormalizeValue("int", text) == Some(r.st.fields[k]))
    ensures var r := Step(form, st, text, lang, d);
            forall k1, k2 ::
              (k1 in r.st.fields && k1 !in st.fields && k1 in form.order
               && k2 in r.st.fields && k2 !in st.fields && k2 in form.order) ==> k1 == k2
  {
    var st1 := st.(lang := lang);
    if !AtGate(form, st1) {
      assert Step(form, st, text, lang, d) == Collect(form, st1, Reading(text), d);
      CollectStoresNormalised(form, st1, Reading(text), d);
    }
  }

  /**
   Storing the child count always asks for the first child's name, also for
   a count of 0, and resets the child index.
   */
  lemma KidCountAsksFirstChild(form: FormDef, st: State, text: string, lang: string, d: Delivery)
    requires "kid_count" !in form.order && "kid_count" !in st.fields
    requires "kid_count" in Step(form, st, text, lang, d).st.fields
    ensures Step(form, st, text, lang, d).reply == Prompt("ask_kid_name", Some(1))
    ensures Step(form, st, text, lang, d).st.kidIdx == 0
  {
    var st1 := st.(lang := lang);
    var norm := Reading(text);
    assert !AsksWohngeld(text) && !AtGate(form, st1);
    assert Step(form, st, text, lang, d) == Collect(form, st1, norm, d);
    assert forall j :: 0 <= j < |form.order| ==> form.order[j] != "kid_count";
    var top := TopLevel(form, st1.fields, st1.idx, norm);
    assert "kid_count" !in top.fields;
    assert top.reply.None? && st1.form == "kindergeld";
    assert Collect(form, st1, norm, d) == KidPhase(st1.(fields := top.fields, idx := top.idx), norm, d);
  }

  /** A step that reaches finalisation leaves the index past the order, and past 0, and the session complete. */
  lemma FinalisedSession(form: FormDef, st: State, text: string, lang: string, d: Delivery)
    requires Step(form, st, text, lang, d).reply in {Finished, RetryLater}
    ensures var st1 := Step(form, st, text, lang, d).st;
            0 < st1.idx && |form.order| <= st1.idx && IsComplete(st1.form, st1.fields, st1.kids).0
  {
    var st1 := st.(lang := lang);
    assert !AsksWohngeld(text) && !AtGate(form, st1);
    assert Step(form, st, text, lang, d) == Collect(form, st1, Reading(text), d);
    var top := TopLevel(form, st1.fields, st1.idx, Reading(text));
    var st' := st1.(fields := top.fields, idx := top.idx);
    assert top.reply.None?;
    if st'.form == "kindergeld" {
      var r := KidPhase(st', Reading(text), d);
      assert "kid_count" in st'.fields;
      assert Less(|st'.kids|, st'.fields["kid_count"]) == Some(false);
      assert r == Finish(st', d);
    }
  }

  /** At finalisation, a further message goes straight back to finalisation. */
  lemma CompleteSessionFinalises(form: FormDef, st: State, text: string, lang: string, d: Delivery)
    requires !AsksWohngeld(text)
    requires 0 < st.idx && |form.order| <= st.idx && IsComplete(st.form, st.fields, st.kids).0
    ensures Step(form, st, text, lang, d) == Finish(st.(lang := lang), d)
  {
    var st1 := st.(lang := lang);
    assert Step(form, st, text, lang, d) == Collect(form, st1, Reading(text), d);
    var top := TopLevel(form, st1.fields, st1.idx, Reading(text));
    assert NextAbsent(form.order, st1.fields, st1.idx) == st1.idx;
    assert top == Loop(st1.fields, st1.idx, None);
    if st1.form == "kindergeld" {
      assert KindergeldRequired[11] == "kid_count";
      assert "kid_count" in st1.fields;
      assert Less(|st1.kids|, st1.fields["kid_count"]) == Some(false);
    }
  }

  /**
   Once finalisation has been attempted, the next message that does not
   switch forms attempts it again with nothing else changed: a failed delivery
   keeps the collected data, and a successful one is repeated.
   */
  lemma FinalisationRepeats(form: FormDef, st: State, text: string, lang: string, d: Delivery,
                            text2: string, lang2: string, d2: Delivery)
    requires Step(form, st, text, lang, d).reply in {Finished, RetryLater}
    requires !AsksWohngeld(text2)
    ensures var st1 := Step(form, st, text, lang, d).st;
            var r := Step(form, st1, text2, lang2, d2);
            && r.reply == (if d2 == Delivered then Finished else RetryLater)
            && r.st == st1.(lang := lang2, phase := if d2 == Delivered then "done" else st1.phase)
  {
    var st1 := Step(form, st, text, lang, d).st;
    FinalisedSession(form, st, text, lang, d);
    CompleteSessionFinalises(form, st1, text2, lang2, d2);
  }

  lemma FinishIgnoresPhase(st: State, d: Delivery, p: string)
    ensures Finish(st.(phase := p), d).reply == Finish(st, d).reply
    ensures Finish(st.(phase := p), d).st == Finish(st, d).st.(phase := Finish(st.(phase := p), d).st.phase)
  {
  }

  lemma KidPhaseIgnoresPhase(st: State, norm: string -> Option<Value>, d: Delivery, p: string)
    ensures KidPhase(st.(phase := p), norm, d).reply == KidPhase(st, norm, d).reply
    ensures KidPhase(st.(phase := p), norm, d).st
         == KidPhase(st, norm, d).st.(phase := KidPhase(st.(phase := p), norm, d).st.phase)
  {
    FinishIgnoresPhase(st, d, p);
  }

  lemma CollectIgnoresPhase(form: FormDef, st: State, norm: string -> Option<Value>, d: Delivery, p: string)
    ensures Collect(form, st.(phase := p), norm, d).reply == Collect(form, st, norm, d).reply
    ensures Collect(form, st.(phase := p), norm, d).st
         == Collect(form, st, norm, d).st.(phase := Collect(form, st.(phase := p), norm, d).st.phase)
  {
    var top := TopLevel(form, st.fields, st.idx, norm);
    var st' := st.(fields := top.fields, idx := top.idx);
    assert st.(phase := p).(fields := top.fields, idx := top.idx) == st'.(phase := p);
    if top.reply.None? {
      if st'.form == "kindergeld" {
        KidPhaseIgnoresPhase(st', norm, d, p);
      } else {
        FinishIgnoresPhase(st', d, p);
      }
    }
  }

  /** The phase is written but never read: it changes neither the reply nor any other part of the session. */
  lemma PhaseNeverRead(form: FormDef, st: State, text: string, lang: string, d: Delivery, p: string)
    ensures Step(form, st.(phase := p), text, lang, d).reply == Step(form, st, text, lang, d).reply
    ensures Step(form, st.(phase := p), text, lang, d).st
         == Step(form, st, text, lang, d).st.(phase := Step(form, st.(phase := p), text, lang, d).st.phase)
  {
    var st1 := st.(lang := lang);
    assert st.(phase := p).(lang := lang) == st1.(phase := p);
    if !AsksWohngeld(text) && !AtGate(form, st1) {
      CollectIgnoresPhase(form, st1, Reading(text), d, p);
    }
  }
}

=== FILE: text.dfy ===
/**
 The Python `str` operations the bot relies on (`strip`, `lower`, `upper`,
 `replace`, `in`, `split`, digit tests and decimal conversion), restricted to
 ASCII text: the Unicode case mappings and Unicode digits of Python are not
 modelled.
 */
module Text {

  /** The ASCII characters for which Python's `str.isspace()` holds. */
  const Whitespace: set<char> :=
    {' ', '\t', '\n', '\r', '\U{0B}', '\U{0C}', '\U{1C}', '\U{1D}', '\U{1E}', '\U{1F}'}

  predicate IsDigit(c: char) {
    '0' <= c <= '9'
  }

  predicate AllDigits(s: string) {
    forall i :: 0 <= i < |s| ==> IsDigit(s[i])
  }

  /** Python's `s.isdigit()` on ASCII text: non-empty and digits only. */
  predicate IsDigitString(s: string) {
    |s| > 0 && AllDigits(s)
  }

  // ---------------------------------------------------------------------------
  // strip
  // ---------------------------------------------------------------------------

  /** Length of the longest prefix of `s` made of characters in `cs`. */
  function LeadLen(s: string, cs: set<char>): (n: nat)
    ensures n <= |s|
    ensures forall k :: 0 <= k < n ==> s[k] in cs
    ensures n < |s| ==> s[n] !in cs
  {
    if |s| == 0 || s[0] !in cs then 0 else 1 + LeadLen(s[1..], cs)
  }

  /** Length of the longest suffix of `s` made of characters in `cs`. */
  function TrailLen(s: string, cs: set<char>): (n: nat)
    ensures n <= |s|
    ensures forall k :: |s| - n <= k < |s| ==> s[k] in cs
    ensures n < |s| ==> s[|s| - 1 - n] !in cs
  {
    if |s| == 0 || s[|s| - 1] !in cs then 0 else 1 + TrailLen(s[..|s| - 1], cs)
  }

  /** Python's `s.strip(chars)`: drops every leading and trailing character in `cs`. */
  function StripChars(s: string, cs: set<char>): (r: string)
    ensures r != [] ==> r[0] !in cs && r[|r| - 1] !in cs
    ensures exists i, j :: 0 <= i <= j <= |s| && r == s[i..j]
                           && (forall k :: 0 <= k < i ==> s[k] in cs)
                           && (forall k :: j <= k < |s| ==> s[k] in cs)
  {
    var i := LeadLen(s, cs);
    var j := |s| - TrailLen(s[i..], cs);
    assert forall k :: j <= k < |s| ==> s[k] == s[i..][k - i];
    s[i..j]
  }

  /** Python's `s.strip()` without arguments. */
  function Strip(s: string): string {
    StripChars(s, Whitespace)
  }

  /** A string that starts and ends outside `cs` is left alone by `StripChars`. */
  lemma StripCharsUnchanged(s: string, cs: set<char>)
    requires s == [] || (s[0] !in cs && s[|s| - 1] !in cs)
    ensures StripChars(s, cs) == s
  {
  }

  /** Stripping removes exactly a padding of `cs` characters around a core that starts and ends outside `cs`. */
  lemma StripCharsFrame(p: string, m: string, q: string, cs: set<char>)
    requires forall k :: 0 <= k < |p| ==> p[k] in cs
    requires forall k :: 0 <= k < |q| ==> q[k] in cs
    requires m == [] || (m[0] !in cs && m[|m| - 1] !in cs)
    ensures StripChars(p + m + q, cs) == m
  {
    var s := p + m + q;
    var r := StripChars(s, cs);
    if m == [] {
      assert forall k :: 0 <= k < |s| ==> s[k] in cs;
    } else {
      var i := LeadLen(s, cs);
      assert s[|p|] == m[0];
      assert i == |p|;
      var t := s[i..];
      assert t == m + q;
      var n := TrailLen(t, cs);
      assert t[|m| - 1] == m[|m| - 1];
      assert n == |q|;
      assert s[i..|s| - n] == m;
    }
  }

  lemma StripIdempotent(s: string)
    ensures Strip(Strip(s)) == Strip(s)
  {
    StripCharsUnchanged(Strip(s), Whitespace);
  }

  /** A string of digits has no surrounding whitespace. */
  lemma StripDigits(s: string)
    requires AllDigits(s)
    ensures Strip(s) == s
  {
    StripCharsUnchanged(s, Whitespace);
  }

  // ---------------------------------------------------------------------------
  // lower / upper
  // ---------------------------------------------------------------------------

  function LowerChar(c: char): char {
    if 'A' <= c <= 'Z' then (c as int + 32) as char else c
  }

  function UpperChar(c: char): char {
    if 'a' <= c <= 'z' then (c as int - 32) as char else c
  }

  /** Python's `s.lower()` on ASCII letters. */
  function Lower(s: string): (r: string)
    ensures |r| == |s|
    ensures forall i :: 0 <= i < |s| ==> r[i] == LowerChar(s[i])
  {
    seq(|s|, i requires 0 <= i < |s| => LowerChar(s[i]))
  }

  /** Python's `s.upper()` on ASCII letters. */
  function Upper(s: string): (r: string)
    ensures |r| == |s|
    ensures forall i :: 0 <= i < |s| ==> r[i] == UpperChar(s[i])
  {
    seq(|s|, i requires 0 <= i < |s| => UpperChar(s[i]))
  }

  lemma LowerIdempotent(s: string)
    ensures Lower(Lower(s)) == Lower(s)
  {
  }

  /** Text already in lower case (no ASCII capital) is its own lower-casing. */
  lemma LowerOfLower(s: string)
    requires forall i :: 0 <= i < |s| ==> !('A' <= s[i] <= 'Z')
    ensures Lower(s) == s
  {
  }

  /** Upper-casing first makes no difference to the lower-cased text. */
  lemma LowerOfUpper(s: string)
    ensures Lower(Upper(s)) == Lower(s)
  {
  }

  /** Where `strip()` cuts: a whitespace prefix and suffix around a core that starts and ends outside whitespace. */
  lemma StripCut(s: string) returns (i: nat, j: nat)
    ensures i <= j <= |s| && Strip(s) == s[i..j]
    ensures forall k :: 0 <= k < i ==> s[k] in Whitespace
    ensures forall k :: j <= k < |s| ==> s[k] in Whitespace
    ensures i < j ==> s[i] !in Whitespace && s[j - 1] !in Whitespace
  {
    i := LeadLen(s, Whitespace);
    j := |s| - TrailLen(s[i..], Whitespace);
    assert forall k :: j <= k < |s| ==> s[k] == s[i..][k - i];
  }

  /** A character map that keeps whitespace and non-whitespace apart commutes with stripping. */
  lemma StripMapped(s: string, t: string) returns (i: nat, j: nat)
    requires |t| == |s|
    requires forall k :: 0 <= k < |s| ==> (t[k] in Whitespace <==> s[k] in Whitespace)
    ensures i <= j <= |s| && Strip(s) == s[i..j] && Strip(t) == t[i..j]
  {
    i, j := StripCut(s);
    assert t == t[..i] + t[i..j] + t[j..];
    StripCharsFrame(t[..i], t[i..j], t[j..], Whitespace);
  }

  /** Stripping and lower-casing commute: case mapping never turns whitespace into a letter or back. */
  lemma StripLower(s: string)
    ensures Strip(Lower(s)) == Lower(Strip(s))
  {
    var t := Lower(s);
    forall k | 0 <= k < |s|
      ensures t[k] in Whitespace <==> s[k] in Whitespace
    {
      assert t[k] == LowerChar(s[k]);
    }
    var i, j := StripMapped(s, t);
    assert t[i..j] == Lower(s[i..j]);
  }

  /** Stripping and upper-casing commute. */
  lemma StripUpper(s: string)
    ensures Strip(Upper(s)) == Upper(Strip(s))
  {
    var t := Upper(s);
    forall k | 0 <= k < |s|
      ensures t[k] in Whitespace <==> s[k] in Whitespace
    {
      assert t[k] == UpperChar(s[k]);
    }
    var i, j := StripMapped(s, t);
    assert t[i..j] == Upper(s[i..j]);
  }

  /** Lower-casing first makes no difference to the upper-cased text. */
  lemma UpperOfLower(s: string)
    ensures Upper(Lower(s)) == Upper(s)
  {
  }

  // ---------------------------------------------------------------------------
  // character deletion: `s.replace(" ", "")` and `re.sub(r"\D", "", s)`
  // ---------------------------------------------------------------------------

  /** Python's `s.replace(c, "")` for a single character `c`. */
  function Without(s: string, c: char): (r: string)
    ensures c !in r
    ensures |r| <= |s|
  {
    if |s| == 0 then [] else (if s[0] == c then [] else [s[0]]) + Without(s[1..], c)
  }

  lemma {:induction false} WithoutAbsent(s: string, c: char)
    requires c !in s
    ensures Without(s, c) == s
  {
    if |s| > 0 {
      WithoutAbsent(s[1..], c);
    }
  }

  /** Python's `re.sub(r"\D", "", s)` on ASCII text: the digits of `s`, in order. */
  function DigitsOf(s: string): (r: string)
    ensures AllDigits(r)
    ensures |r| <= |s|
  {
    if |s| == 0 then [] else (if IsDigit(s[0]) then [s[0]] else []) + DigitsOf(s[1..])
  }

  lemma {:induction false} DigitsOfDigits(s: string)
    requires AllDigits(s)
    ensures DigitsOf(s) == s
  {
    if |s| > 0 {
      DigitsOfDigits(s[1..]);
    }
  }

  /** The digits of a concatenation are the digits of the first part followed by those of the second. */
  lemma {:induction false} DigitsOfConcat(a: string, b: string)
    ensures DigitsOf(a + b) == DigitsOf(a) + DigitsOf(b)
  {
    if |a| == 0 {
      assert a + b == b;
    } else {
      var ab := a + b;
      assert ab[0] == a[0] && ab[1..] == a[1..] + b;
      DigitsOfConcat(a[1..], b);
      var h: string := if IsDigit(a[0]) then [a[0]] else [];
      calc {
        DigitsOf(ab);
        h + DigitsOf(a[1..] + b);
        h + (DigitsOf(a[1..]) + DigitsOf(b));
        (h + DigitsOf(a[1..])) + DigitsOf(b);
      }
    }
  }

  /** A text without digits has no digits to keep. */
  lemma {:induction false} DigitsOfNone(s: string)
    requires forall k :: 0 <= k < |s| ==> !IsDigit(s[k])
    ensures DigitsOf(s) == []
  {
    if |s| > 0 {
      DigitsOfNone(s[1..]);
    }
  }

  /** Stripping whitespace keeps every digit: `re.sub(r"\D", "", s)` sees the same digits before and after `strip()`. */
  lemma DigitsOfStrip(s: string)
    ensures DigitsOf(Strip(s)) == DigitsOf(s)
  {
    var i, j := StripCut(s);
    DigitsOfBlank(s, 0, i);
    DigitsOfBlank(s, j, |s|);
    var p, m, q := s[..i], s[i..j], s[j..];
    assert p == s[0..i] && q == s[j..|s|];
    assert s == p + m + q;
    DigitsOfConcat(p + m, q);
    DigitsOfConcat(p, m);
  }

  /** A run of whitespace holds no digit. */
  lemma DigitsOfBlank(s: string, lo: nat, hi: nat)
    requires lo <= hi <= |s|
    requires forall k :: lo <= k < hi ==> s[k] in Whitespace
    ensures DigitsOf(s[lo..hi]) == []
  {
    var p := s[lo..hi];
    assert forall k :: 0 <= k < |p| ==> p[k] == s[lo + k];
    DigitsOfNone(p);
  }

  /** Deleting a character twice is deleting it once. */
  lemma WithoutIdempotent(s: string, c: char)
    ensures Without(Without(s, c), c) == Without(s, c)
  {
    WithoutAbsent(Without(s, c), c);
  }

  /** Deleting from a concatenation deletes from each part. */
  lemma {:induction false} WithoutConcat(a: string, b: string, c: char)
    ensures Without(a + b, c) == Without(a, c) + Without(b, c)
  {
    if a == [] {
      assert a + b == b;
    } else {
      assert (a + b)[1..] == a[1..] + b;
      WithoutConcat(a[1..], b, c);
    }
  }

  /** Deleting `c` keeps the first and the last character when neither is `c`. */
  lemma WithoutEnds(s: string, c: char)
    requires s != [] && s[0] != c && s[|s| - 1] != c
    ensures var r := Without(s, c); r != [] && r[0] == s[0] && r[|r| - 1] == s[|s| - 1]
  {
    var n := |s| - 1;
    assert s == s[..n] + [s[n]];
    WithoutConcat(s[..n], [s[n]], c);
    assert Without([s[n]], c) == [s[n]];
  }

  /** Deleting a non-letter commutes with lower-casing. */
  lemma {:induction false} WithoutLower(s: string, c: char)
    requires !('A' <= c <= 'Z') && !('a' <= c <= 'z')
    ensures Without(Lower(s), c) == Lower(Without(s, c))
  {
    if |s| > 0 {
      var h := if s[0] == c then [] else [s[0]];
      WithoutLower(s[1..], c);
      WithoutLowerHead(s, c);
      LowerConcat(h, Without(s[1..], c));
    }
  }

  lemma WithoutLowerHead(s: string, c: char)
    requires s != [] && !('A' <= c <= 'Z') && !('a' <= c <= 'z')
    ensures Without(Lower(s), c) == Lower(if s[0] == c then [] else [s[0]]) + Without(Lower(s[1..]), c)
  {
    assert Lower(s)[1..] == Lower(s[1..]);
  }

  lemma LowerConcat(a: string, b: string)
    ensures Lower(a + b) == Lower(a) + Lower(b)
  {
  }

  // ---------------------------------------------------------------------------
  // substring test and `str.replace(p, "")`
  // ---------------------------------------------------------------------------

  predicate StartsWith(s: string, p: string) {
    |p| <= |s| && s[..|p|] == p
  }

  /** Python's `p in s`. */
  predicate Contains(s: string, p: string)
    decreases |s|
  {
    StartsWith(s, p) || (|s| > 0 && Contains(s[1..], p))
  }

  /** `Contains` finds `p` wherever it sits. */
  lemma {:induction false} ContainsInfix(a: string, p: string, b: string)
    ensures Contains(a + p + b, p)
  {
    if |a| == 0 {
      assert a + p + b == p + b;
      assert (p + b)[..|p|] == p;
    } else {
      ContainsInfix(a[1..], p, b);
      assert (a + p + b)[1..] == a[1..] + p + b;
    }
  }

  /** `p` occurs in `s` starting at index `i`. */
  predicate OccursAt(s: string, p: string, i: int) {
    0 <= i <= |s| - |p| && s[i..i + |p|] == p
  }

  /** `Contains` is the textbook substring test: `p` occurs at some index of `s`. */
  lemma {:induction false} ContainsWindow(s: string, p: string)
    ensures Contains(s, p) <==> exists i :: OccursAt(s, p, i)
    decreases |s|
  {
    if Contains(s, p) {
      if StartsWith(s, p) {
        assert OccursAt(s, p, 0);
      } else {
        ContainsWindow(s[1..], p);
        var i :| OccursAt(s[1..], p, i);
        assert s[i + 1..i + 1 + |p|] == s[1..][i..i + |p|];
        assert OccursAt(s, p, i + 1);
      }
    } else if exists i :: OccursAt(s, p, i) {
      var i :| OccursAt(s, p, i);
      assert s == s[..i] + p + s[i + |p|..];
      ContainsInfix(s[..i], p, s[i + |p|..]);
    }
  }

  /** A pattern with a character the text lacks does not occur in it. */
  lemma ContainsNeedsChar(s: string, p: string, k: nat)
    requires k < |p| && p[k] !in s
    ensures !Contains(s, p)
  {
    ContainsWindow(s, p);
  }

  /** Python's `s.replace(p, "")`: deletes the non-overlapping occurrences of `p`, scanning left to right. */
  function RemoveAll(s: string, p: string): (r: string)
    requires |p| > 0
    ensures |r| <= |s|
    decreases |s|
  {
    if |s| == 0 then []
    else if StartsWith(s, p) then RemoveAll(s[|p|..], p)
    else [s[0]] + RemoveAll(s[1..], p)
  }

  /** A prefix none of whose characters can begin `p` is kept in front of the deletion from the rest. */
  lemma {:induction false} RemoveAllKeeps(a: string, s: string, p: string)
    requires |p| > 0
    requires forall k :: 0 <= k < |a| ==> a[k] != p[0]
    ensures RemoveAll(a + s, p) == a + RemoveAll(s, p)
  {
    if a == [] {
      assert a + s == s;
    } else {
      var t := a + s;
      assert !StartsWith(t, p) by {
        if |p| <= |t| {
          assert t[..|p|][0] == a[0];
        }
      }
      assert t[1..] == a[1..] + s;
      assert RemoveAll(t, p) == [a[0]] + RemoveAll(a[1..] + s, p);
      RemoveAllKeeps(a[1..], s, p);
      assert [a[0]] + (a[1..] + RemoveAll(s, p)) == a + RemoveAll(s, p);
    }
  }

  lemma {:induction false} RemoveAllAbsent(s: string, p: string)
    requires |p| > 0
    requires !Contains(s, p)
    ensures RemoveAll(s, p) == s
    decreases |s|
  {
    if |s| > 0 {
      RemoveAllAbsent(s[1..], p);
    }
  }

  /** Deleting a pattern that occurs makes the text strictly shorter. */
  lemma {:induction false} RemoveAllShrinks(s: string, p: string)
    requires |p| > 0
    requires Contains(s, p)
    ensures |RemoveAll(s, p)| < |s|
    decreases |s|
  {
    if !StartsWith(s, p) {
      RemoveAllShrinks(s[1..], p);
    }
  }

  // ---------------------------------------------------------------------------
  // splitting at a separator
  // ---------------------------------------------------------------------------

  /** Python's `s.split(c)` for a single-character separator. */
  function SplitOn(s: string, c: char): (parts: seq<string>)
    ensures |parts| >= 1
    ensures forall j :: 0 <= j < |parts| ==> c !in parts[j]
  {
    if |s| == 0 then [""]
    else
      var rest := SplitOn(s[1..], c);
      if s[0] == c then [""] + rest else [[s[0]] + rest[0]] + rest[1..]
  }

  /** Python's `c.join(parts)`. */
  function Join(parts: seq<string>, c: char): string
    requires |parts| >= 1
  {
    if |parts| == 1 then parts[0] else parts[0] + [c] + Join(parts[1..], c)
  }

  lemma {:induction false} SplitOnNone(a: string, c: char)
    requires c !in a
    ensures SplitOn(a, c) == [a]
  {
    if |a| > 0 {
      SplitOnNone(a[1..], c);
      assert [a[0]] + a[1..] == a;
    }
  }

  /** Splitting a joined string at a separator the first part lacks peels that part off. */
  lemma {:induction false} SplitOnJoin(a: string, c: char, b: string)
    requires c !in a
    ensures SplitOn(a + [c] + b, c) == [a] + SplitOn(b, c)
  {
    if |a| == 0 {
      assert a + [c] + b == [c] + b;
      assert ([c] + b)[1..] == b;
    } else {
      SplitOnJoin(a[1..], c, b);
      assert (a + [c] + b)[1..] == a[1..] + [c] + b;
      assert [a[0]] + a[1..] == a;
    }
  }

  /** Joining the parts of a split gives back the original text. */
  lemma {:induction false} JoinSplitOn(s: string, c: char)
    ensures Join(SplitOn(s, c), c) == s
  {
    if |s| > 0 {
      JoinSplitOn(s[1..], c);
      var rest := SplitOn(s[1..], c);
      if s[0] == c {
        assert Join([""] + rest, c) == "" + [c] + Join(rest, c);
      } else {
        var parts := [[s[0]] + rest[0]] + rest[1..];
        if |rest| == 1 {
          assert Join(parts, c) == [s[0]] + rest[0];
        } else {
          assert parts[1..] == rest[1..];
          assert Join(parts, c) == [s[0]] + rest[0] + [c] + Join(rest[1..], c);
        }
        assert [s[0]] + s[1..] == s;
      }
    }
  }

  // ---------------------------------------------------------------------------
  // split(maxsplit=1)
  // ---------------------------------------------------------------------------

  /** Length of the longest prefix of `s` free of whitespace. */
  function WordLen(s: string): (n: nat)
    ensures n <= |s|
    ensures forall k :: 0 <= k < n ==> s[k] !in Whitespace
    ensures n < |s| ==> s[n] in Whitespace
  {
    if |s| == 0 || s[0] in Whitespace then 0 else 1 + WordLen(s[1..])
  }

  /** Every character of `s` is whitespace (the empty text included). */
  predicate Blank(s: string) {
    forall k :: 0 <= k < |s| ==> s[k] in Whitespace
  }

  /**
   Python's `s.split(maxsplit=1)` read as a pair: the first word and the
   remainder after the whitespace that follows it (trailing whitespace kept);
   both are empty for a blank string, and the remainder is empty for a single
   word. The text is the word and the remainder with whitespace before the
   word and between the two, and that whitespace is not empty when the
   remainder is not.
   */
  function SplitFirst(s: string): (r: (string, string))
    ensures r.0 == "" <==> forall k :: 0 <= k < |s| ==> s[k] in Whitespace
    ensures forall k :: 0 <= k < |r.0| ==> r.0[k] !in Whitespace
    ensures r.1 != "" ==> r.1[0] !in Whitespace
    ensures r.0 == "" ==> r.1 == ""
    ensures exists p, w :: s == p + r.0 + w + r.1 && Blank(p) && Blank(w) && (r.1 != "" ==> w != "")
  {
    var i := LeadLen(s, Whitespace);
    var t := s[i..];
    var n := WordLen(t);
    var rest := t[n..];
    var m := LeadLen(rest, Whitespace);
    SplitShape(s, i, t, n, rest, m);
    (t[..n], rest[m..])
  }

  /** The pieces `SplitFirst` cuts `s` into: leading whitespace, the word, the whitespace after it, the remainder. */
  lemma SplitShape(s: string, i: nat, t: string, n: nat, rest: string, m: nat)
    requires i <= |s| && t == s[i..] && n <= |t| && rest == t[n..] && m <= |rest|
    requires Blank(s[..i]) && Blank(rest[..m])
    requires rest != [] ==> rest[0] in Whitespace
    requires m < |rest| ==> rest[m] !in Whitespace
    ensures exists p, w :: s == p + t[..n] + w + rest[m..] && Blank(p) && Blank(w) && (rest[m..] != "" ==> w != "")
  {
    var p, a, w, b := s[..i], t[..n], rest[..m], rest[m..];
    assert b != "" ==> w != "";
    assert s == p + (a + (w + b)) by {
      assert rest == w + b;
      assert t == a + rest;
      assert s == p + t;
    }
    assert p + (a + (w + b)) == (p + a) + (w + b);
    assert (p + a) + (w + b) == p + a + w + b;
  }

  /**
   Splitting `p + a + w + b`, with whitespace `p` before the word `a` and
   whitespace `w` before the remainder `b`, gives back `a` and `b`, however
   long the whitespace runs are.
   */
  lemma SplitFirstJoin(p: string, a: string, w: string, b: string)
    requires Blank(p) && Blank(w)
    requires a != "" && forall k :: 0 <= k < |a| ==> a[k] !in Whitespace
    requires b == "" || (w != "" && b[0] !in Whitespace)
    ensures SplitFirst(p + a + w + b) == (a, b)
  {
    var rest := w + b;
    var t := a + rest;
    var s := p + t;
    assert p + a + w + b == s;
    assert LeadLen(s, Whitespace) == |p| by {
      LeadLenPrefix(p, t);
    }
    assert s[|p|..] == t;
    assert WordLen(t) == |a| by {
      WordLenPrefix(a, rest);
    }
    assert t[..|a|] == a && t[|a|..] == rest;
    assert LeadLen(rest, Whitespace) == |w| by {
      LeadLenPrefix(w, b);
    }
    assert rest[|w|..] == b;
  }

  lemma {:induction false} LeadLenPrefix(p: string, b: string)
    requires Blank(p)
    requires b == "" || b[0] !in Whitespace
    ensures LeadLen(p + b, Whitespace) == |p|
  {
    if p != [] {
      assert (p + b)[1..] == p[1..] + b;
      LeadLenPrefix(p[1..], b);
    } else {
      assert p + b == b;
    }
  }

  /** A single word splits into itself and an empty remainder. */
  lemma SplitFirstWord(a: string)
    requires a != "" && forall k :: 0 <= k < |a| ==> a[k] !in Whitespace
    ensures SplitFirst(a) == (a, "")
  {
    assert LeadLen(a, Whitespace) == 0;
    assert a[0..] == a;
    WordLenPrefix(a, "");
    assert a + "" == a;
  }

  lemma {:induction false} WordLenPrefix(a: string, b: string)
    requires forall k :: 0 <= k < |a| ==> a[k] !in Whitespace
    requires b == "" || b[0] in Whitespace
    ensures WordLen(a + b) == |a|
  {
    if a != [] {
      assert (a + b)[1..] == a[1..] + b;
      WordLenPrefix(a[1..], b);
    } else {
      assert a + b == b;
    }
  }

  // ---------------------------------------------------------------------------
  // decimal numbers: `int(s)`, `str(n)`, `f"{n:02d}"`
  // ---------------------------------------------------------------------------

  function DigitChar(d: nat): char
    requires d < 10
  {
    ('0' as int + d) as char
  }

  function DigitValue(c: char): nat
    requires IsDigit(c)
  {
    c as int - '0' as int
  }

  function Pow10(k: nat): nat {
    if k == 0 then 1 else 10 * Pow10(k - 1)
  }

  /** Python's `int(s)` on a string of ASCII digits (leading zeros allowed). */
  function ParseNat(s: string): nat
    requires AllDigits(s)
  {
    if |s| == 0 then 0 else 10 * ParseNat(s[..|s| - 1]) + DigitValue(s[|s| - 1])
  }

  /** Python's `str(n)` for a natural number: decimal, no leading zeros. */
  function NatToString(n: nat): (r: string)
    ensures |r| >= 1 && AllDigits(r)
    ensures |r| > 1 ==> r[0] != '0'
  {
    if n < 10 then [DigitChar(n)] else NatToString(n / 10) + [DigitChar(n % 10)]
  }

  /** Python's `str(i)` for any integer, with a minus sign for negatives. */
  function IntToString(i: int): string {
    if i < 0 then "-" + NatToString(-i) else NatToString(i)
  }

  /** Python's `f"{n:02d}"` for `n < 100`. */
  function Pad2(n: nat): (r: string)
    requires n < 100
    ensures |r| == 2 && AllDigits(r)
  {
    if n < 10 then ['0', DigitChar(n)] else assert |NatToString(n / 10)| == 1; NatToString(n)
  }

  /** `str` and `int` are inverse on natural numbers. */
  lemma {:induction false} ParseNatToString(n: nat)
    ensures ParseNat(NatToString(n)) == n
  {
    if n >= 10 {
      ParseNatToString(n / 10);
      var s := NatToString(n);
      assert s[..|s| - 1] == NatToString(n / 10);
    }
  }

  lemma ParsePad2(n: nat)
    requires n < 100
    ensures ParseNat(Pad2(n)) == n
  {
    if n < 10 {
      var s := Pad2(n);
      assert s[..1] == ['0'];
      assert s[..1][..0] == [];
      assert ParseNat(s[..1]) == 0;
    } else {
      ParseNatToString(n);
    }
  }

  /** A number written with at most `|s|` digits is below `10^|s|`. */
  lemma {:induction false} ParseNatBound(s: string)
    requires AllDigits(s)
    ensures ParseNat(s) < Pow10(|s|)
  {
    if |s| > 0 {
      ParseNatBound(s[..|s| - 1]);
    }
  }

  /** How many digits `str(n)` has, up to four, and that larger numbers need more. */
  lemma NatToStringLength(n: nat)
    ensures n < 10 ==> |NatToString(n)| == 1
    ensures 10 <= n < 100 ==> |NatToString(n)| == 2
    ensures 100 <= n < 1000 ==> |NatToString(n)| == 3
    ensures 1000 <= n < 10000 ==> |NatToString(n)| == 4
    ensures 10000 <= n ==> |NatToString(n)| >= 5
  {
    if n < 10 {
    } else if n < 100 {
      assert |NatToString(n / 10)| == 1;
    } else if n < 1000 {
      assert |NatToString(n / 100)| == 1;
      assert |NatToString(n / 10)| == 2;
    } else if n < 10000 {
      assert |NatToString(n / 1000)| == 1;
      assert |NatToString(n / 100)| == 2;
      assert |NatToString(n / 10)| == 3;
    } else {
      NatToStringAtLeastFive(n);
    }
  }

  lemma {:induction false} NatToStringAtLeastFive(n: nat)
    requires n >= 10000
    ensures |NatToString(n)| >= 5
  {
    if n >= 100000 {
      NatToStringAtLeastFive(n / 10);
    } else {
      assert |NatToString(n / 10000)| == 1;
      assert |NatToString(n / 1000)| == 2;
      assert |NatToString(n / 100)| == 3;
      assert |NatToString(n / 10)| == 4;
    }
  }
}

=== FILE: validators.dfy ===
/**
 The field normaliser and the completeness check of the Kindergeld bot
 (app/validators.py). `NormalizeValue` maps raw chat text to the canonical
 value of a field type, or to `None`; `IsComplete` decides whether a session
 is ready for finalisation and which required keys are still missing.
 */
module Validators {
  import opened Wrappers
  import opened Text

  /** A value the normaliser can produce: a Python `bool`, `int` or `str`. */
  datatype Value = Bool(b: bool) | Int(n: nat) | Str(s: string)

  /** One child record of a session: child-field key to normalised value. */
  type Kid = map<string, Value>

  const YesWords: seq<string> := ["ja", "j", "yes", "y", "po", "true"]
  const NoWords: seq<string> := ["nein", "n", "no", "jo", "false"]
  const Relations: seq<string> := ["leiblich", "adoptiert", "pflegekind", "stiefkind"]
  const ChildStatuses: seq<string> := ["schulpflichtig", "ausbildung", "studium", "arbeitssuchend", "unter_6"]

  /** The type names with a branch of their own; every other name is read as a plain string. */
  const TypeNames: set<string> :=
    {"bool", "date", "plz", "iban", "taxid", "int", "enum_relation", "enum_kstatus", "monat"}

  /** Python's numeric reading of a value in a comparison with an `int`: a `bool` counts as 0 or 1, a `str` as nothing. */
  function Numeric(v: Value): Option<int> {
    match v
    case Bool(b) => Some(if b then 1 else 0)
    case Int(n) => Some(n)
    case Str(_) => None
  }

  // ---------------------------------------------------------------------------
  // Calendar
  // ---------------------------------------------------------------------------

  predicate IsLeapYear(y: int) {
    y % 4 == 0 && (y % 100 != 0 || y % 400 == 0)
  }

  function DaysInMonth(m: nat, y: nat): nat
    requires 1 <= m <= 12
  {
    if m == 2 then (if IsLeapYear(y) then 29 else 28)
    else if m == 4 || m == 6 || m == 9 || m == 11 then 30
    else 31
  }

  /** `datetime.date(y, m, d)` accepts the triple: a year in 1..9999 and a real day of a real month (proleptic Gregorian). */
  predicate IsCalendarDate(d: nat, m: nat, y: nat) {
    1 <= y <= 9999 && 1 <= m <= 12 && 1 <= d <= DaysInMonth(m, y)
  }

  // ---------------------------------------------------------------------------
  // Canonical formats, stated independently of the normaliser
  // ---------------------------------------------------------------------------

  /** Canonical `DD.MM.Y` date: two-digit day and month, a year without leading zeros, forming a real date. */
  predicate IsCanonicalDate(s: string) {
    var p := SplitOn(s, '.');
    && |p| == 3
    && |p[0]| == 2 && |p[1]| == 2 && 1 <= |p[2]| <= 4
    && AllDigits(p[0]) && AllDigits(p[1]) && AllDigits(p[2])
    && (|p[2]| > 1 ==> p[2][0] != '0')
    && IsCalendarDate(ParseNat(p[0]), ParseNat(p[1]), ParseNat(p[2]))
  }

  /** Canonical `MM.YYYY` month: a two-digit month 01..12 and a four-digit year. */
  predicate IsCanonicalMonth(s: string) {
    && |s| == 7 && s[2] == '.'
    && AllDigits(s[..2]) && AllDigits(s[3..])
    && 1 <= ParseNat(s[..2]) <= 12
  }

  /** A German IBAN as the normaliser accepts it: "DE" and twenty digits. */
  predicate IsGermanIban(s: string) {
    |s| == 22 && s[..2] == "DE" && AllDigits(s[2..])
  }

  /** The value `v` has the canonical shape of field type `ftype`. */
  predicate Conforms(ftype: string, v: Value) {
    if ftype == "bool" then v.Bool?
    else if ftype == "date" then v.Str? && IsCanonicalDate(v.s)
    else if ftype == "plz" then v.Str? && |v.s| == 5 && AllDigits(v.s)
    else if ftype == "iban" then v.Str? && IsGermanIban(v.s)
    else if ftype == "taxid" then v.Str? && |v.s| == 11 && AllDigits(v.s)
    else if ftype == "int" then v.Int?
    else if ftype == "enum_relation" then v.Str? && v.s in Relations
    else if ftype == "enum_kstatus" then v.Str? && v.s in ChildStatuses
    else if ftype == "monat" then v.Str? && IsCanonicalMonth(v.s)
    else v.Str? && v.s != "" && Strip(v.s) == v.s
  }

  // ---------------------------------------------------------------------------
  // The normaliser, one branch per type
  // ---------------------------------------------------------------------------

  /** The numbers of a text made of three dot-separated digit groups, of any length. */
  function DateNumbers(s: string): Option<(nat, nat, nat)> {
    var p := SplitOn(s, '.');
    if |p| == 3 && AllDigits(p[0]) && AllDigits(p[1]) && AllDigits(p[2])
    then Some((ParseNat(p[0]), ParseNat(p[1]), ParseNat(p[2])))
    else None
  }

  /** The three numbers `^(\d{1,2})\.(\d{1,2})\.(\d{4})$` captures in `s`, if it matches. */
  function MatchDate(s: string): Option<(nat, nat, nat)> {
    var p := SplitOn(s, '.');
    if && |p| == 3
       && 1 <= |p[0]| <= 2 && 1 <= |p[1]| <= 2 && |p[2]| == 4
       && AllDigits(p[0]) && AllDigits(p[1]) && AllDigits(p[2])
    then Some((ParseNat(p[0]), ParseNat(p[1]), ParseNat(p[2])))
    else None
  }

  /** `f"{d:02d}.{m:02d}.{y}"`: the year is printed as a plain integer. */
  function FormatDate(d: nat, m: nat, y: nat): string
    requires d < 100 && m < 100
  {
    Pad2(d) + "." + Pad2(m) + "." + NatToString(y)
  }

  /**
   The `date` branch, on already stripped text: spaces are dropped, the
   pattern matched and the date checked. A text is accepted exactly when its
   space-free form matches and names a calendar date, and the value is that
   date in canonical form.
   */
  function NormalizeDate(s: string): (r: Option<Value>)
    ensures r.Some? ==> r.value.Str? && IsCanonicalDate(r.value.s)
    ensures r.Some? ==> DateNumbers(r.value.s) == MatchDate(Without(s, ' '))
    ensures var g := MatchDate(Without(s, ' '));
            r.Some? <==> g.Some? && IsCalendarDate(g.value.0, g.value.1, g.value.2)
  {
    match MatchDate(Without(s, ' '))
    case None => None
    case Some((d, m, y)) =>
      if IsCalendarDate(d, m, y) then
        FormatDateCanonical(d, m, y);
        Some(Str(FormatDate(d, m, y)))
      else None
  }

  /** `^(0?[1-9]|1[0-2])$`: a month written with one digit, or two with a leading zero, or 10 to 12. */
  predicate IsMonthText(t: string) {
    || (|t| == 1 && '1' <= t[0] <= '9')
    || (|t| == 2 && t[0] == '0' && '1' <= t[1] <= '9')
    || (|t| == 2 && t[0] == '1' && '0' <= t[1] <= '2')
  }

  /** The `monat` branch, on stripped text: `^(0?[1-9]|1[0-2])\.(\d{4})$`, printed as `f"{int(month):02d}.{year}"`. */
  function NormalizeMonth(s: string): (r: Option<Value>)
    ensures r.Some? ==> r.value.Str? && IsCanonicalMonth(r.value.s)
  {
    var p := SplitOn(s, '.');
    if |p| == 2 && IsMonthText(p[0]) && |p[1]| == 4 && AllDigits(p[1]) then
      MonthTextValue(p[0]);
      var out := Pad2(ParseNat(p[0])) + "." + p[1];
      assert out[..2] == Pad2(ParseNat(p[0])) && out[3..] == p[1];
      ParsePad2(ParseNat(p[0]));
      Some(Str(out))
    else None
  }

  /**
   Python's `normalize_value(ftype, text)`: the canonical value of `text` read
   as a field of type `ftype`, or `None` when the text does not qualify. The
   text is stripped of surrounding whitespace first; a type name without a
   branch of its own is read as a plain string.
   */
  function NormalizeValue(ftype: string, text: string): (r: Option<Value>)
    ensures r.Some? ==> Conforms(ftype, r.value)
    ensures ftype !in TypeNames ==> (r.Some? <==> Strip(text) != "")
    ensures ftype !in TypeNames && r.Some? ==> r.value.s == Strip(text)
  {
    var s := Strip(text);
    if ftype == "bool" then NormalizeBool(s)
    else if ftype == "date" then NormalizeDate(s)
    else if ftype == "plz" then NormalizeDigits(s, 5)
    else if ftype == "iban" then NormalizeIban(s)
    else if ftype == "taxid" then NormalizeDigits(s, 11)
    else if ftype == "int" then NormalizeInt(s)
    else if ftype == "enum_relation" then NormalizeChoice(s, Relations)
    else if ftype == "enum_kstatus" then NormalizeChoice(s, ChildStatuses)
    else if ftype == "monat" then NormalizeMonth(s)
    else StripIdempotent(text); NormalizeString(s)
  }

  /** The `bool` branch, on stripped text. */
  function NormalizeBool(s: string): (r: Option<Value>)
    ensures r.Some? ==> r.value.Bool?
  {
    var t := Lower(s);
    if t in YesWords then Some(Bool(true))
    else if t in NoWords then Some(Bool(false))
    else None
  }

  /**
   The `plz` (five) and `taxid` (eleven) branches, on stripped text: every
   non-digit is deleted, then the count must match. Any text holding exactly
   `count` digits is accepted, whatever separates them, and its value is
   those digits in order.
   */
  function NormalizeDigits(s: string, count: nat): (r: Option<Value>)
    ensures r.Some? ==> r.value.Str? && |r.value.s| == count && AllDigits(r.value.s)
    ensures r.Some? <==> |DigitsOf(s)| == count
    ensures r.Some? ==> r.value.s == DigitsOf(s)
  {
    var v := DigitsOf(s);
    if |v| == count then Some(Str(v)) else None
  }

  /**
   The `iban` branch, on stripped text: spaces are deleted and letters
   upper-cased; the text is accepted exactly when "DE" and twenty digits
   remain, and that is its value.
   */
  function NormalizeIban(s: string): (r: Option<Value>)
    ensures r.Some? ==> r.value.Str? && IsGermanIban(r.value.s)
    ensures r.Some? <==> IsGermanIban(Upper(Without(s, ' ')))
    ensures r.Some? ==> r.value.s == Upper(Without(s, ' '))
  {
    var v := Upper(Without(s, ' '));
    if |v| == 22 && v[..2] == "DE" && AllDigits(v[2..]) then Some(Str(v)) else None
  }

  /** The `int` branch, on stripped text: `int(s) if s.isdigit() else None`. */
  function NormalizeInt(s: string): (r: Option<Value>)
    ensures r.Some? ==> r.value.Int?
  {
    if IsDigitString(s) then Some(Int(ParseNat(s))) else None
  }

  /** The two enum branches, on stripped text: a listed word in any letter case is accepted as its lower-case form. */
  function NormalizeChoice(s: string, words: seq<string>): (r: Option<Value>)
    ensures r.Some? ==> r.value.Str? && r.value.s in words
    ensures r.Some? <==> Lower(s) in words
    ensures r.Some? ==> r.value.s == Lower(s)
  {
    var t := Lower(s);
    if t in words then Some(Str(t)) else None
  }

  /** The default branch, on stripped text: the text itself unless it is empty. */
  function NormalizeString(s: string): (r: Option<Value>)
    ensures r.Some? ==> r.value.Str? && r.value.s != ""
  {
    if s != "" then Some(Str(s)) else None
  }

  // ---------------------------------------------------------------------------
  // Proof helpers for the formats
  // ---------------------------------------------------------------------------

  predicate DigitsAndDots(s: string) {
    forall i :: 0 <= i < |s| ==> IsDigit(s[i]) || s[i] == '.'
  }

  lemma DigitsHaveNoDot(s: string)
    requires AllDigits(s)
    ensures '.' !in s && ' ' !in s
  {
  }

  lemma FormatDateParts(d: nat, m: nat, y: nat)
    requires d < 100 && m < 100
    ensures SplitOn(FormatDate(d, m, y), '.') == [Pad2(d), Pad2(m), NatToString(y)]
    ensures DigitsAndDots(FormatDate(d, m, y))
    ensures |FormatDate(d, m, y)| == 6 + |NatToString(y)|
  {
    var a, b, c := Pad2(d), Pad2(m), NatToString(y);
    DigitsHaveNoDot(a);
    DigitsHaveNoDot(b);
    DigitsHaveNoDot(c);
    assert FormatDate(d, m, y) == a + ['.'] + (b + ['.'] + c);
    SplitOnJoin(a, '.', b + ['.'] + c);
    SplitOnJoin(b, '.', c);
    SplitOnNone(c, '.');
  }

  lemma FormatDateCanonical(d: nat, m: nat, y: nat)
    requires IsCalendarDate(d, m, y)
    ensures IsCanonicalDate(FormatDate(d, m, y))
    ensures DateNumbers(FormatDate(d, m, y)) == Some((d, m, y))
  {
    FormatDateParts(d, m, y);
    NatToStringLength(y);
    ParsePad2(d);
    ParsePad2(m);
    ParseNatToString(y);
  }

  /** The month number of a text that matches the month alternative lies in 1..12. */
  lemma MonthTextValue(t: string)
    requires IsMonthText(t)
    ensures AllDigits(t) && 1 <= ParseNat(t) <= 12
  {
    assert t[..|t| - 1][..0] == [];
    if |t| == 2 {
      assert t[..1][..0] == [];
      assert ParseNat(t[..1]) == DigitValue(t[0]);
    }
  }

  /** A canonical month text re-matches the month alternative. */
  lemma Pad2MonthText(n: nat)
    requires 1 <= n <= 12
    ensures IsMonthText(Pad2(n))
  {
    if n >= 10 {
      assert NatToString(n) == NatToString(n / 10) + [DigitChar(n % 10)];
      assert NatToString(n / 10) == ['1'];
    }
  }

  // ---------------------------------------------------------------------------
  // Completeness
  // ---------------------------------------------------------------------------

  /** The top-level keys a Kindergeld session needs, in declaration order. */
  const KindergeldRequired: seq<string> :=
    ["full_name", "dob", "addr_street", "addr_plz", "addr_city", "taxid_parent",
     "iban", "marital", "citizenship", "employment", "start_month", "kid_count"]

  /** `a` is `b` with some elements left out, order kept. */
  predicate IsSubsequence(a: seq<string>, b: seq<string>)
    decreases |b|
  {
    if |a| == 0 then true
    else if |b| == 0 then false
    else (a[0] == b[0] && IsSubsequence(a[1..], b[1..])) || IsSubsequence(a, b[1..])
  }

  /** The keys of `keys` that `fields` lacks, in the order of `keys`. */
  function Absent(keys: seq<string>, fields: map<string, Value>): (missing: seq<string>)
    ensures forall k :: k in missing <==> k in keys && k !in fields
    ensures IsSubsequence(missing, keys)
  {
    if |keys| == 0 then []
    else
      var rest := Absent(keys[1..], fields);
      if keys[0] in fields then rest
      else
        assert ([keys[0]] + rest)[1..] == rest;
        [keys[0]] + rest
  }

  /**
   Python's `is_complete(form, fields, kids)`. For the Kindergeld form: every
   absent required key, in declaration order, while any is absent; then
   `["kid_name"]` until the number of child records equals `kid_count`
   (compared as Python compares an `int` with the stored value). Every other
   form is always ready.
   */
  function IsComplete(form: string, fields: map<string, Value>, kids: seq<Kid>): (r: (bool, seq<string>))
    ensures r.0 <==> r.1 == []
    ensures form != "kindergeld" ==> r.0
    ensures form == "kindergeld" && (exists k :: k in KindergeldRequired && k !in fields) ==>
              && !r.0
              && (forall k :: k in r.1 <==> k in KindergeldRequired && k !in fields)
              && IsSubsequence(r.1, KindergeldRequired)
    ensures form == "kindergeld" && (forall k :: k in KindergeldRequired ==> k in fields) ==>
              (r.0 <==> Numeric(fields["kid_count"]) == Some(|kids|))
              && (!r.0 ==> r.1 == ["kid_name"])
  {
    if form == "kindergeld" then
      var missing := Absent(KindergeldRequired, fields);
      if missing != [] then
        assert missing[0] in missing;
        (false, missing)
      else
        assert forall k :: k in KindergeldRequired ==> k in fields;
        if Numeric(fields["kid_count"]) != Some(|kids|) then (false, ["kid_name"])
        else (true, [])
    else (true, [])
  }

  // ---------------------------------------------------------------------------
  // Properties of the normaliser
  // ---------------------------------------------------------------------------

  /** A text of digits and dots has no surrounding whitespace and no space to delete. */
  lemma DigitsAndDotsClean(s: string)
    requires DigitsAndDots(s)
    ensures Strip(s) == s && Without(s, ' ') == s
  {
    if s != [] {
      assert IsDigit(s[0]) || s[0] == '.';
      assert IsDigit(s[|s| - 1]) || s[|s| - 1] == '.';
    }
    StripCharsUnchanged(s, Whitespace);
    WithoutAbsent(s, ' ');
  }

  /** Lower-casing keeps a stripped text stripped: ASCII letters are never whitespace. */
  lemma LowerKeepsStripped(s: string)
    requires Strip(s) == s
    ensures Strip(Lower(s)) == Lower(s)
  {
    if s != [] {
      assert s[0] !in Whitespace && s[|s| - 1] !in Whitespace;
    }
    StripCharsUnchanged(Lower(s), Whitespace);
  }

  /** `bool`: the affirmative words give True, the negative words False, anything else None; no word is both. */
  lemma BoolTokens(text: string)
    ensures forall w :: w in YesWords ==> w !in NoWords
    ensures NormalizeValue("bool", text) == Some(Bool(true)) <==> Lower(Strip(text)) in YesWords
    ensures NormalizeValue("bool", text) == Some(Bool(false)) <==> Lower(Strip(text)) in NoWords
    ensures NormalizeValue("bool", text) == None <==>
              Lower(Strip(text)) !in YesWords && Lower(Strip(text)) !in NoWords
  {
  }

  /** Three digit groups joined by dots are made of digits and dots and split back into the groups. */
  lemma JoinThreeDigitGroups(a: string, b: string, c: string)
    requires AllDigits(a) && AllDigits(b) && AllDigits(c)
    ensures DigitsAndDots(a + "." + b + "." + c)
    ensures SplitOn(a + "." + b + "." + c, '.') == [a, b, c]
  {
    DigitsHaveNoDot(a);
    JoinTwoDigitGroups(b, c);
    assert a + "." + b + "." + c == a + ['.'] + (b + "." + c);
    SplitOnJoin(a, '.', b + "." + c);
  }

  /** The type name selects the branch, which works on the stripped text. */
  lemma DateBranch(text: string)
    ensures NormalizeValue("date", text) == NormalizeDate(Strip(text))
  {
  }

  lemma DigitBranches(text: string)
    ensures NormalizeValue("plz", text) == NormalizeDigits(Strip(text), 5)
    ensures NormalizeValue("taxid", text) == NormalizeDigits(Strip(text), 11)
    ensures NormalizeValue("iban", text) == NormalizeIban(Strip(text))
  {
  }

  /**
   `date` on a text of the shape `D.M.YYYY` (one or two digits for day and
   month, four for the year): the zero-padded date when it is a real calendar
   date, None otherwise.
   */
  lemma DateOfGroups(a: string, b: string, c: string)
    requires AllDigits(a) && AllDigits(b) && AllDigits(c)
    requires 1 <= |a| <= 2 && 1 <= |b| <= 2 && |c| == 4
    ensures ParseNat(a) < 100 && ParseNat(b) < 100
    ensures NormalizeValue("date", a + "." + b + "." + c) ==
              if IsCalendarDate(ParseNat(a), ParseNat(b), ParseNat(c))
              then Some(Str(FormatDate(ParseNat(a), ParseNat(b), ParseNat(c))))
              else None
  {
    ParseNatBound(a);
    ParseNatBound(b);
    assert Pow10(2) == 100;
    var t := a + "." + b + "." + c;
    MatchGroups(a, b, c);
    DateBranch(t);
  }

  /**
   Spaces anywhere in a date text are ignored: the text reads as the
   stripped text with every space deleted.
   */
  lemma DateIgnoresSpaces(text: string)
    ensures NormalizeValue("date", text) == NormalizeValue("date", Without(Strip(text), ' '))
  {
    var s := Strip(text);
    var w := Without(s, ' ');
    if s != [] {
      WithoutEnds(s, ' ');
      StripCharsUnchanged(w, Whitespace);
    }
    WithoutIdempotent(s, ' ');
  }

  /** Day, month and year groups with a space after each dot read as the same groups without the spaces. */
  lemma DateSpaced(a: string, b: string, c: string)
    requires AllDigits(a) && AllDigits(b) && AllDigits(c)
    requires a != [] && c != []
    ensures NormalizeValue("date", a + ". " + b + ". " + c) == NormalizeValue("date", a + "." + b + "." + c)
  {
    var t := a + ". " + b + ". " + c;
    var u := a + "." + b + "." + c;
    SpacedDotsClean(a, b, c);
    DateIgnoresSpaces(t);
    DateIgnoresSpaces(u);
  }

  /** Deleting the spaces after the dots leaves the groups joined by dots, and neither text has whitespace at its ends. */
  lemma SpacedDotsClean(a: string, b: string, c: string)
    requires AllDigits(a) && AllDigits(b) && AllDigits(c)
    requires a != [] && c != []
    ensures var t := a + ". " + b + ". " + c;
            var u := a + "." + b + "." + c;
            Strip(t) == t && Strip(u) == u && Without(t, ' ') == u && Without(u, ' ') == u
  {
    var t := a + ". " + b + ". " + c;
    var u := a + "." + b + "." + c;
    assert t[0] == a[0] && t[|t| - 1] == c[|c| - 1];
    assert u[0] == a[0] && u[|u| - 1] == c[|c| - 1];
    StripCharsUnchanged(t, Whitespace);
    StripCharsUnchanged(u, Whitespace);
    WithoutConcat(a + ". " + b + ". ", c, ' ');
    WithoutConcat(a + ". " + b, ". ", ' ');
    WithoutConcat(a + ". ", b, ' ');
    WithoutConcat(a, ". ", ' ');
    WithoutAbsent(a, ' ');
    WithoutAbsent(b, ' ');
    WithoutAbsent(c, ' ');
    assert Without(". ", ' ') == ".";
    WithoutIdempotent(t, ' ');
  }

  /** "1. 1. 2024", with a space after each dot, is read as "01.01.2024". */
  lemma DateSpacedExample()
    ensures NormalizeValue("date", "1. 1. 2024") == Some(Str("01.01.2024"))
  {
    var a, b, c := "1", "1", "2024";
    assert "1. 1. 2024" == a + ". " + b + ". " + c;
    assert "1.1.2024" == a + "." + b + "." + c;
    DateSpaced(a, b, c);
    DatePaddedExample();
  }

  /** Day, month and year groups of the right lengths, joined by dots, match the pattern; the text needs no cleaning. */
  lemma MatchGroups(a: string, b: string, c: string)
    requires AllDigits(a) && AllDigits(b) && AllDigits(c)
    requires 1 <= |a| <= 2 && 1 <= |b| <= 2 && |c| == 4
    ensures var t := a + "." + b + "." + c;
            && Without(Strip(t), ' ') == t
            && MatchDate(t) == Some((ParseNat(a), ParseNat(b), ParseNat(c)))
  {
    var t := a + "." + b + "." + c;
    JoinThreeDigitGroups(a, b, c);
    DigitsAndDotsClean(t);
  }

  /** `int(s)` ignores a leading zero. */
  lemma {:induction false} ParseNatLeadingZero(t: string)
    requires AllDigits(t)
    ensures ParseNat("0" + t) == ParseNat(t)
  {
    if |t| > 0 {
      ParseNatLeadingZero(t[..|t| - 1]);
      assert ("0" + t)[..|t|] == "0" + t[..|t| - 1];
    } else {
      assert ("0" + t)[..0] == [];
    }
  }

  /** The decimal readings the date examples rely on. */
  lemma ExampleNumbers()
    ensures ParseNat("1") == 1 && ParseNat("01") == 1 && ParseNat("02") == 2 && ParseNat("31") == 31
    ensures ParseNat("2024") == 2024 && ParseNat("0999") == 999 && ParseNat("0000") == 0
    ensures NatToString(2024) == "2024" && NatToString(999) == "999"
  {
    SmallNumbers();
    YearNumbers();
    ZeroYear();
  }

  lemma SmallNumbers()
    ensures ParseNat("1") == 1 && ParseNat("01") == 1 && ParseNat("02") == 2 && ParseNat("31") == 31
  {
    ParseNatToString(1);
    ParseNatToString(2);
    ParseNatToString(31);
    ParseNatLeadingZero("1");
    ParseNatLeadingZero("2");
  }

  lemma YearNumbers()
    ensures ParseNat("2024") == 2024 && ParseNat("0999") == 999
    ensures NatToString(2024) == "2024" && NatToString(999) == "999"
  {
    assert NatToString(99) == "99";
    assert NatToString(999) == "999";
    assert NatToString(20) == "20";
    assert NatToString(202) == "202";
    assert NatToString(2024) == "2024";
    ParseNatToString(999);
    ParseNatToString(2024);
    ParseNatLeadingZero("999");
    assert "0" + "999" == "0999";
  }

  lemma ZeroYear()
    ensures ParseNat("0000") == 0
  {
    var z: string := "0";
    assert ParseNat(z) == 0;
    ParseNatLeadingZero(z);
    assert "0" + z == "00";
    ParseNatLeadingZero("00");
    assert "0" + "00" == "000";
    ParseNatLeadingZero("000");
    assert "0" + "000" == "0000";
  }

  lemma FormatDateExamples()
    ensures FormatDate(1, 1, 2024) == "01.01.2024"
    ensures FormatDate(1, 1, 999) == "01.01.999"
  {
    ExampleNumbers();
  }

  /** "1.1.2024" is padded to "01.01.2024". */
  lemma DatePaddedExample()
    ensures NormalizeValue("date", "1.1.2024") == Some(Str("01.01.2024"))
  {
    ExampleNumbers();
    var a, b, c := "1", "1", "2024";
    assert "1.1.2024" == a + "." + b + "." + c;
    DateOfGroups(a, b, c);
    assert NormalizeValue("date", a + "." + b + "." + c) == Some(Str(FormatDate(1, 1, 2024)));
    FormatDateExamples();
  }

  /** "31.02.2024" matches the pattern but names no calendar date. */
  lemma DateImpossibleExample()
    ensures NormalizeValue("date", "31.02.2024") == None
  {
    ExampleNumbers();
    var a, b, c := "31", "02", "2024";
    assert "31.02.2024" == a + "." + b + "." + c;
    DateOfGroups(a, b, c);
  }

  /** "01.01.0999" is accepted, but printed as "01.01.999". */
  lemma DateShortYearExample()
    ensures NormalizeValue("date", "01.01.0999") == Some(Str("01.01.999"))
  {
    ExampleNumbers();
    var a, c := "01", "0999";
    assert "01.01.0999" == a + "." + a + "." + c;
    DateOfGroups(a, a, c);
    assert NormalizeValue("date", a + "." + a + "." + c) == Some(Str(FormatDate(1, 1, 999)));
    FormatDateExamples();
  }

  /** `date` rejects dotted digit groups whose year does not have exactly four digits. */
  lemma DateNeedsFourDigitYear(a: string, b: string, c: string)
    requires AllDigits(a) && AllDigits(b) && AllDigits(c) && |c| != 4
    ensures NormalizeValue("date", a + "." + b + "." + c) == None
  {
    var t := a + "." + b + "." + c;
    JoinThreeDigitGroups(a, b, c);
    DigitsAndDotsClean(t);
    assert MatchDate(Without(Strip(t), ' ')) == None;
  }

  /** "01.01.999", the canonical text just produced, is rejected: its year has three digits. */
  lemma DateThreeDigitYearExample()
    ensures NormalizeValue("date", "01.01.999") == None
  {
    assert "01.01.999" == "01" + "." + "01" + "." + "999";
    DateNeedsFourDigitYear("01", "01", "999");
  }

  /** Year 0000 matches the pattern but lies before year 1. */
  lemma DateYearZeroExample()
    ensures NormalizeValue("date", "01.01.0000") == None
  {
    ExampleNumbers();
    var a, c := "01", "0000";
    assert "01.01.0000" == a + "." + a + "." + c;
    DateOfGroups(a, a, c);
  }

  /** What the `date` branch accepted: a calendar date, printed by `FormatDate`. */
  lemma DateAccepted(s: string, o: string) returns (d: nat, m: nat, y: nat)
    requires NormalizeDate(s) == Some(Str(o))
    ensures d < 100 && m < 100 && IsCalendarDate(d, m, y) && o == FormatDate(d, m, y)
  {
    var t := Without(s, ' ');
    var p := SplitOn(t, '.');
    d, m, y := ParseNat(p[0]), ParseNat(p[1]), ParseNat(p[2]);
    ParseNatBound(p[0]);
    ParseNatBound(p[1]);
    assert Pow10(2) == 100;
  }

  /**
   The `date` branch on a printed calendar date: accepted and printed again
   unchanged when the year has four digits, rejected otherwise.
   */
  lemma FormattedDateReads(d: nat, m: nat, y: nat)
    requires d < 100 && m < 100 && IsCalendarDate(d, m, y)
    ensures var o := FormatDate(d, m, y);
            NormalizeDate(Strip(o)) == if |NatToString(y)| == 4 then Some(Str(o)) else None
  {
    var o := FormatDate(d, m, y);
    DigitsAndDotsClean(o) by {
      FormatDateParts(d, m, y);
    }
    MatchFormatted(d, m, y);
  }

  /** The pattern matches a printed date, giving back its numbers, exactly when the year has four digits. */
  lemma MatchFormatted(d: nat, m: nat, y: nat)
    requires d < 100 && m < 100
    ensures MatchDate(FormatDate(d, m, y)) == if |NatToString(y)| == 4 then Some((d, m, y)) else None
  {
    FormatDateParts(d, m, y);
    ParsePad2(d);
    ParsePad2(m);
    ParseNatToString(y);
  }

  /** `date`: an accepted date with a four-digit year normalises to itself. */
  lemma DateIdempotent(text: string, o: string)
    requires NormalizeValue("date", text) == Some(Str(o))
    requires |o| == 10
    ensures NormalizeValue("date", o) == Some(Str(o))
  {
    DateBranch(text);
    DateBranch(o);
    var d, m, y := DateAccepted(Strip(text), o);
    FormatDateParts(d, m, y);
    FormattedDateReads(d, m, y);
  }

  /**
   `date`: a year below 1000 is printed with fewer than four digits, so the
   canonical text no longer matches the pattern and re-normalises to None.
   */
  lemma DateShortYearNotIdempotent(text: string, o: string)
    requires NormalizeValue("date", text) == Some(Str(o))
    requires |o| < 10
    ensures NormalizeValue("date", o) == None
  {
    DateBranch(text);
    DateBranch(o);
    var d, m, y := DateAccepted(Strip(text), o);
    FormatDateParts(d, m, y);
    FormattedDateReads(d, m, y);
  }

  /** `date`: the year of an accepted text is printed in full exactly when it is at least 1000. */
  lemma DateFullYear(text: string, o: string)
    requires NormalizeValue("date", text) == Some(Str(o))
    ensures |o| == 10 <==> DateNumbers(o).value.2 >= 1000
  {
    DateBranch(text);
    var d, m, y := DateAccepted(Strip(text), o);
    FormatDateParts(d, m, y);
    FormatDateCanonical(d, m, y);
    NatToStringLength(y);
  }

  /** The `iban` branch leaves an accepted IBAN as it is. */
  lemma IbanReads(o: string)
    requires IsGermanIban(o)
    ensures NormalizeIban(Strip(o)) == Some(Str(o))
  {
    assert o[0] == 'D' && o[1] == 'E';
    assert forall i :: 2 <= i < |o| ==> o[i] == o[2..][i - 2];
    assert o[|o| - 1] !in Whitespace;
    StripCharsUnchanged(o, Whitespace);
    WithoutAbsent(o, ' ');
    assert Upper(o) == o;
  }

  /** The `plz` and `taxid` branches leave an accepted digit string as it is. */
  lemma DigitsRead(o: string, count: nat)
    requires AllDigits(o) && |o| == count
    ensures NormalizeDigits(Strip(o), count) == Some(Str(o))
  {
    StripDigits(o);
    DigitsOfDigits(o);
  }

  /** `plz`, `taxid`, `iban`: an accepted value normalises to itself. */
  lemma DigitFieldsIdempotent(ftype: string, text: string, o: string)
    requires ftype == "plz" || ftype == "taxid" || ftype == "iban"
    requires NormalizeValue(ftype, text) == Some(Str(o))
    ensures NormalizeValue(ftype, o) == Some(Str(o))
  {
    DigitBranches(text);
    DigitBranches(o);
    if ftype == "iban" {
      IbanReads(o);
    } else if ftype == "plz" {
      DigitsRead(o, 5);
    } else {
      DigitsRead(o, 11);
    }
  }

  /** `a.y` with digit strings `a` and `y` is made of digits and dots and splits back into `a` and `y`. */
  lemma JoinTwoDigitGroups(a: string, y: string)
    requires AllDigits(a) && AllDigits(y)
    ensures DigitsAndDots(a + "." + y)
    ensures SplitOn(a + "." + y, '.') == [a, y]
  {
    DigitsHaveNoDot(a);
    DigitsHaveNoDot(y);
    SplitOnJoin(a, '.', y);
    SplitOnNone(y, '.');
  }

  /** The `monat` branch maps its canonical output to itself. */
  lemma MonthBranchIdempotent(s: string, o: string)
    requires NormalizeMonth(s) == Some(Str(o))
    ensures Strip(o) == o && NormalizeMonth(o) == Some(Str(o))
  {
    var p := SplitOn(s, '.');
    assert |p| == 2 && IsMonthText(p[0]) && |p[1]| == 4 && AllDigits(p[1]);
    var n := ParseNat(p[0]);
    MonthTextValue(p[0]);
    var a, y := Pad2(n), p[1];
    assert o == a + "." + y;
    JoinTwoDigitGroups(a, y);
    DigitsAndDotsClean(o);
    Pad2MonthText(n);
    ParsePad2(n);
    var q := SplitOn(o, '.');
    assert q == [a, y];
    assert Pad2(ParseNat(q[0])) + "." + q[1] == o;
  }

  /** `monat`: an accepted month normalises to itself. */
  lemma MonthIdempotent(text: string, o: string)
    requires NormalizeValue("monat", text) == Some(Str(o))
    ensures NormalizeValue("monat", o) == Some(Str(o))
  {
    MonthBranchIdempotent(Strip(text), o);
  }

  /** `int`: exactly the all-digit texts are accepted, and `str(n)` reads back as `n`. */
  lemma IntRoundTrip(text: string, n: nat)
    ensures NormalizeValue("int", text).Some? <==> IsDigitString(Strip(text))
    ensures NormalizeValue("int", NatToString(n)) == Some(Int(n))
  {
    StripDigits(NatToString(n));
    ParseNatToString(n);
  }

  /** `int` ignores leading zeros, as Python's `int("007")` is 7: any run of zeros before `str(n)` still reads as `n`. */
  lemma IntLeadingZeros(z: string, n: nat)
    requires forall k :: 0 <= k < |z| ==> z[k] == '0'
    ensures NormalizeValue("int", z + NatToString(n)) == Some(Int(n))
  {
    var t := NatToString(n);
    ParseNatZeros(z, t);
    ParseNatToString(n);
    StripDigits(z + t);
  }

  lemma {:induction false} ParseNatZeros(z: string, t: string)
    requires forall k :: 0 <= k < |z| ==> z[k] == '0'
    requires AllDigits(t)
    ensures AllDigits(z + t) && ParseNat(z + t) == ParseNat(t)
  {
    if z == [] {
      assert z + t == t;
    } else {
      ParseNatZeros(z[1..], t);
      assert z + t == "0" + (z[1..] + t);
      ParseNatLeadingZero(z[1..] + t);
    }
  }

  /** An enum branch maps its (lower-case, stripped) output to itself. */
  lemma ChoiceBranchIdempotent(s: string, words: seq<string>, o: string)
    requires Strip(s) == s
    requires NormalizeChoice(s, words) == Some(Str(o))
    ensures o == Lower(s) && o in words
    ensures Strip(o) == o && NormalizeChoice(o, words) == Some(Str(o))
  {
    LowerKeepsStripped(s);
    LowerIdempotent(s);
  }

  /** `enum_relation` and `enum_kstatus`: an accepted value is the lower-cased text, one of the listed words, and normalises to itself. */
  lemma EnumIdempotent(ftype: string, text: string, o: string)
    requires ftype == "enum_relation" || ftype == "enum_kstatus"
    requires NormalizeValue(ftype, text) == Some(Str(o))
    ensures o in (if ftype == "enum_relation" then Relations else ChildStatuses)
    ensures o == Lower(Strip(text))
    ensures NormalizeValue(ftype, o) == Some(Str(o))
  {
    StripIdempotent(text);
    ChoiceBranchIdempotent(Strip(text), if ftype == "enum_relation" then Relations else ChildStatuses, o);
  }

  /** The string default: a non-empty result has no surrounding whitespace and normalises to itself. */
  lemma StringIdempotent(ftype: string, text: string, o: string)
    requires ftype !in TypeNames
    requires NormalizeValue(ftype, text) == Some(Str(o))
    ensures o != "" && Strip(o) == o
    ensures NormalizeValue(ftype, o) == Some(Str(o))
  {
    StringBranch(ftype, text);
    StringBranch(ftype, o);
    StripIdempotent(text);
  }

  /** Every type outside the named ones takes the string default. */
  lemma StringBranch(ftype: string, text: string)
    requires ftype !in TypeNames
    ensures NormalizeValue(ftype, text) == NormalizeString(Strip(text))
  {
  }

  // ---------------------------------------------------------------------------
  // What the digit, IBAN, enum and month branches accept
  // ---------------------------------------------------------------------------

  /**
   `plz` and `taxid` read the digits of the raw text: surrounding whitespace
   makes no difference, and the text is accepted exactly when it holds five
   (eleven) digits, which become the value.
   */
  lemma DigitFieldsRead(text: string)
    ensures NormalizeValue("plz", text) ==
              if |DigitsOf(text)| == 5 then Some(Str(DigitsOf(text))) else None
    ensures NormalizeValue("taxid", text) ==
              if |DigitsOf(text)| == 11 then Some(Str(DigitsOf(text))) else None
  {
    DigitBranches(text);
    DigitsOfStrip(text);
  }

  /** Two digit groups of five digits in all, written around any non-digit separator, read as the postcode of those digits. */
  lemma PostcodeSeparated(a: string, c: char, b: string)
    requires AllDigits(a) && AllDigits(b) && !IsDigit(c) && |a| + |b| == 5
    ensures NormalizeValue("plz", a + [c] + b) == Some(Str(a + b))
  {
    DigitFieldsRead(a + [c] + b);
    DigitsAroundSeparator(a, c, b);
  }

  /** A postcode written with a space is read as its five digits. */
  lemma PostcodeSpacedExample()
    ensures NormalizeValue("plz", "10 115") == Some(Str("10115"))
  {
    var a, b := "10", "115";
    assert a + [' '] + b == "10 115" && a + b == "10115";
    PostcodeSeparated(a, ' ', b);
  }

  /** Two digit groups around a non-digit: the digits are the two groups joined. */
  lemma DigitsAroundSeparator(a: string, c: char, b: string)
    requires AllDigits(a) && AllDigits(b) && !IsDigit(c)
    ensures DigitsOf(a + [c] + b) == a + b
  {
    DigitsOfConcat(a + [c], b);
    DigitsOfConcat(a, [c]);
    DigitsOfDigits(a);
    DigitsOfDigits(b);
    DigitsOfNone([c]);
    assert DigitsOf(a + [c]) == a + [];
    assert a + [] == a;
  }

  /** The `iban` branch ignores letter case and spaces anywhere in the text. */
  lemma IbanIgnoresCaseAndSpaces(s: string)
    ensures NormalizeIban(Lower(s)) == NormalizeIban(s)
    ensures NormalizeIban(Without(s, ' ')) == NormalizeIban(s)
  {
    WithoutLower(s, ' ');
    UpperOfLower(Without(s, ' '));
    WithoutIdempotent(s, ' ');
  }

  /** The enum branches ignore letter case. */
  lemma ChoiceIgnoresCase(s: string, words: seq<string>)
    ensures NormalizeChoice(Upper(s), words) == NormalizeChoice(s, words)
    ensures NormalizeChoice(Lower(s), words) == NormalizeChoice(s, words)
  {
    LowerOfUpper(s);
    LowerIdempotent(s);
  }

  /** `enum_relation` and `enum_kstatus` accept exactly a listed word, in any case, around whitespace, as its lower-case form. */
  lemma EnumReads(ftype: string, text: string)
    requires ftype == "enum_relation" || ftype == "enum_kstatus"
    ensures var words := if ftype == "enum_relation" then Relations else ChildStatuses;
            && (NormalizeValue(ftype, text).Some? <==> Lower(Strip(text)) in words)
            && (NormalizeValue(ftype, text).Some? ==> NormalizeValue(ftype, text) == Some(Str(Lower(Strip(text)))))
  {
  }

  /**
   `monat` on a text of the shape `M.YYYY` (a month matching `0?[1-9]|1[0-2]`
   and a four-digit year): accepted, with the month zero-padded to two digits
   and the year kept.
   */
  lemma MonthOfGroups(a: string, y: string)
    requires IsMonthText(a) && |y| == 4 && AllDigits(y)
    ensures AllDigits(a) && 1 <= ParseNat(a) <= 12
    ensures NormalizeValue("monat", a + "." + y) == Some(Str(Pad2(ParseNat(a)) + "." + y))
  {
    var t := a + "." + y;
    MonthTextValue(a);
    JoinTwoDigitGroups(a, y);
    DigitsAndDotsClean(t);
    MonthBranch(t);
    assert SplitOn(t, '.') == [a, y];
    assert NormalizeMonth(t) == Some(Str(Pad2(ParseNat(a)) + "." + y));
  }

  lemma MonthBranch(text: string)
    ensures NormalizeValue("monat", text) == NormalizeMonth(Strip(text))
  {
  }

  /** Conversely, every accepted month text has that shape, and the value is its padded month and its year. */
  lemma MonthAccepted(text: string, o: string) returns (a: string, y: string)
    requires NormalizeValue("monat", text) == Some(Str(o))
    ensures Strip(text) == a + "." + y
    ensures IsMonthText(a) && |y| == 4 && AllDigits(y)
    ensures AllDigits(a) && 1 <= ParseNat(a) <= 12
    ensures o == Pad2(ParseNat(a)) + "." + y
  {
    var s := Strip(text);
    MonthBranch(text);
    var p := SplitOn(s, '.');
    a, y := p[0], p[1];
    MonthTextValue(a);
    JoinSplitOn(s, '.');
    assert p[1..] == [y];
    assert Join(p, '.') == a + ['.'] + y;
  }

  /** The IBAN type reads a text the same in any letter case, its surrounding whitespace included. */
  lemma IbanTextIgnoresCase(text: string)
    ensures NormalizeValue("iban", Lower(text)) == NormalizeValue("iban", text)
    ensures NormalizeValue("iban", Upper(text)) == NormalizeValue("iban", text)
  {
    DigitBranches(text);
    DigitBranches(Lower(text));
    DigitBranches(Upper(text));
    StripLower(text);
    StripUpper(text);
    IbanIgnoresCaseAndSpaces(Strip(text));
    IbanIgnoresCaseAndSpaces(Upper(Strip(text)));
    LowerOfUpper(Strip(text));
  }

  /** A listed word written in capitals, with whitespace around it, is read as the listed word: " LEIBLICH " as "leiblich". */
  lemma EnumCapitals(ftype: string, w: string, p: string, q: string)
    requires ftype == "enum_relation" || ftype == "enum_kstatus"
    requires w in (if ftype == "enum_relation" then Relations else ChildStatuses)
    requires forall k :: 0 <= k < |p| ==> p[k] in Whitespace
    requires forall k :: 0 <= k < |q| ==> q[k] in Whitespace
    ensures NormalizeValue(ftype, p + Upper(w) + q) == Some(Str(w))
  {
    ListedWordsPlain(ftype, w);
    PlainCapitals(w, p, q);
    EnumReads(ftype, p + Upper(w) + q);
  }

  /** A non-empty word without capitals or whitespace, written in capitals with whitespace around it, strips and lower-cases back to itself. */
  lemma PlainCapitals(w: string, p: string, q: string)
    requires w != []
    requires forall k :: 0 <= k < |w| ==> ('a' <= w[k] <= 'z') || w[k] == '_' || IsDigit(w[k])
    requires forall k :: 0 <= k < |p| ==> p[k] in Whitespace
    requires forall k :: 0 <= k < |q| ==> q[k] in Whitespace
    ensures Strip(p + Upper(w) + q) == Upper(w)
    ensures Lower(Upper(w)) == w
  {
    var u := Upper(w);
    assert u[0] == UpperChar(w[0]) && u[|u| - 1] == UpperChar(w[|w| - 1]);
    StripCharsFrame(p, u, q, Whitespace);
    LowerOfUpper(w);
    LowerOfLower(w);
  }

  /** Every listed enum word is non-empty and made of lower-case letters and underscores and digits only. */
  lemma ListedWordsPlain(ftype: string, w: string)
    requires ftype == "enum_relation" || ftype == "enum_kstatus"
    requires w in (if ftype == "enum_relation" then Relations else ChildStatuses)
    ensures w != []
    ensures forall k :: 0 <= k < |w| ==> ('a' <= w[k] <= 'z') || w[k] == '_' || IsDigit(w[k])
  {
  }

  /** A one-digit month gets a leading zero: "3.2024" is read as "03.2024", and likewise for 1 to 9. */
  lemma MonthPadded(c: char, y: string)
    requires '1' <= c <= '9' && |y| == 4 && AllDigits(y)
    ensures NormalizeValue("monat", [c] + "." + y) == Some(Str(['0', c] + "." + y))
  {
    var a := [c];
    MonthOfGroups(a, y);
    assert ParseNat(a) == DigitValue(c) by {
      assert a[..0] == [];
    }
    assert Pad2(DigitValue(c)) == ['0', c];
  }
}

=== FILE: webhook.dfy ===
/**
 The WhatsApp entry point (app/main.py): the language sniffed from a
 message, the user id taken from Twilio's `From` field, and one Twilio
 webhook turn around `handle_message`, where an exception escaping the
 orchestrator becomes a fixed apology.
 */
module Webhook {
  import opened Wrappers
  import opened Text
  import opened Orchestrator

  // ---------------------------------------------------------------------------
  // Language sniffing
  // ---------------------------------------------------------------------------

  /** The tokens that make a message English. */
  const EnglishWords: seq<string> := ["hello", "yes", "no", "child benefit"]

  /** The tokens that make a message Albanian, looked for only when no English token is present. */
  const AlbanianWords: seq<string> := ["përshëndetje", "pershendetje", "faleminderit", "po", "jo"]

  /** Python's `any(w in low for w in words)`. */
  function AnyIn(low: string, words: seq<string>): (r: bool)
    ensures r <==> exists i :: 0 <= i < |words| && Contains(low, words[i])
  {
    if |words| == 0 then false
    else if Contains(low, words[0]) then true
    else
      var r := AnyIn(low, words[1..]);
      assert forall i :: 1 <= i < |words| ==> words[i] == words[1..][i - 1];
      r
  }

  /**
   Python's `detect_lang`: "en" when the lower-cased text contains an English
   token, otherwise "sq" when it contains an Albanian one, otherwise "de".
   */
  function DetectLang(text: string): (r: string)
    ensures r in {"en", "sq", "de"}
    ensures r == "en" <==> exists i :: 0 <= i < |EnglishWords| && Contains(Lower(text), EnglishWords[i])
    ensures r == "sq" <==> (forall i :: 0 <= i < |EnglishWords| ==> !Contains(Lower(text), EnglishWords[i]))
                           && exists i :: 0 <= i < |AlbanianWords| && Contains(Lower(text), AlbanianWords[i])
  {
    var low := Lower(text);
    if AnyIn(low, EnglishWords) then "en"
    else if AnyIn(low, AlbanianWords) then "sq"
    else "de"
  }

  /** Upper- and lower-case letters are alike to the sniffer. */
  lemma DetectLangIgnoresCase(text: string)
    ensures DetectLang(Lower(text)) == DetectLang(text)
    ensures DetectLang(Upper(text)) == DetectLang(text)
  {
    LowerIdempotent(text);
    LowerOfUpper(text);
  }

  /** An English token anywhere, in any ASCII case, makes the message English, whatever else it contains. */
  lemma EnglishWins(a: string, i: nat, b: string)
    requires i < |EnglishWords|
    ensures DetectLang(a + EnglishWords[i] + b) == "en"
    ensures DetectLang(a + Upper(EnglishWords[i]) + b) == "en"
  {
    var w := EnglishWords[i];
    assert Lower(w) == w by {
      LowerOfLower(w);
    }
    LowerConcat(a + w, b);
    LowerConcat(a, w);
    ContainsInfix(Lower(a), w, Lower(b));
    var u := Upper(w);
    LowerOfUpper(w);
    LowerConcat(a + u, b);
    LowerConcat(a, u);
  }

  /** No token at all leaves the default, German. */
  lemma NoTokenIsGerman(text: string)
    requires forall i :: 0 <= i < |EnglishWords| ==> !Contains(Lower(text), EnglishWords[i])
    requires forall i :: 0 <= i < |AlbanianWords| ==> !Contains(Lower(text), AlbanianWords[i])
    ensures DetectLang(text) == "de"
  {
  }

  /** The empty message is German. */
  lemma EmptyIsGerman()
    ensures DetectLang("") == "de"
  {
    assert Lower("") == "";
    forall i | 0 <= i < |EnglishWords| ensures !Contains("", EnglishWords[i]) {
      assert |EnglishWords[i]| > 0;
    }
    forall i | 0 <= i < |AlbanianWords| ensures !Contains("", AlbanianWords[i]) {
      assert |AlbanianWords[i]| > 0;
    }
  }

  /** The bare two-letter Albanian tokens match inside other words: "Post" counts as Albanian. */
  lemma PostIsAlbanian()
    ensures DetectLang("Post") == "sq"
  {
    var low := Lower("Post");
    assert low == "post";
    ContainsInfix("", "po", "st");
    assert "" + "po" + "st" == low;
    assert AlbanianWords[3] == "po";
    ContainsNeedsChar(low, "hello", 0);
    ContainsNeedsChar(low, "yes", 0);
    ContainsNeedsChar(low, "no", 0);
    ContainsNeedsChar(low, "child benefit", 0);
  }

  /** German "noch" contains the English token "no": the message counts as English. */
  lemma NochIsEnglish()
    ensures DetectLang("noch") == "en"
  {
    ContainsInfix("", "no", "ch");
    assert "" + "no" + "ch" == "noch";
    assert Lower("noch") == "noch";
    assert EnglishWords[2] == "no";
  }

  // ---------------------------------------------------------------------------
  // The Twilio user id
  // ---------------------------------------------------------------------------

  const Channel: string := "whatsapp:"

  /** `From.replace("whatsapp:", "")`: the sender with every channel prefix deleted; only a sender naming the channel changes. */
  function TwilioUser(from: string): (r: string)
    ensures |r| <= |from|
    ensures r == from <==> !Contains(from, Channel)
  {
    if Contains(from, Channel) then
      RemoveAllShrinks(from, Channel);
      RemoveAll(from, Channel)
    else
      RemoveAllAbsent(from, Channel);
      RemoveAll(from, Channel)
  }

  /** Deleting a pattern from a string that starts with it deletes that first occurrence and goes on. */
  lemma RemoveAllLeading(p: string, s: string)
    requires |p| > 0
    ensures RemoveAll(p + s, p) == RemoveAll(s, p)
  {
    assert (p + s)[..|p|] == p;
    assert (p + s)[|p|..] == s;
  }

  /**
   Every "whatsapp:" is deleted, not only a leading one: text in front of an
   occurrence that cannot begin one (it has no 'w') is kept, and the
   deletion goes on after the occurrence.
   */
  lemma TwilioUserInfix(a: string, b: string)
    requires forall k :: 0 <= k < |a| ==> a[k] != 'w'
    ensures TwilioUser(a + Channel + b) == a + TwilioUser(b)
  {
    assert a + Channel + b == a + (Channel + b);
    RemoveAllKeeps(a, Channel + b, Channel);
    RemoveAllLeading(Channel, b);
  }

  /** The usual sender, "whatsapp:" followed by a phone number, becomes the phone number. */
  lemma TwilioUserOfChannel(number: string)
    requires !Contains(number, Channel)
    ensures TwilioUser(Channel + number) == number
  {
    RemoveAllLeading(Channel, number);
    RemoveAllAbsent(number, Channel);
  }

  /** A sender without the prefix is kept as it is. */
  lemma TwilioUserPlain(from: string)
    requires !Contains(from, Channel)
    ensures TwilioUser(from) == from
  {
    RemoveAllAbsent(from, Channel);
  }

  // ---------------------------------------------------------------------------
  // One Twilio webhook turn
  // ---------------------------------------------------------------------------

  /** The reply when the orchestrator raises. */
  const TwilioError: string := "Uups, bei mir ist gerade ein Fehler passiert. Bitte nochmal schicken."

  /** The reply after the form was filled and sent. */
  const DoneText: string :=
    "Top, ich habe deinen Kindergeld-Antrag ausgefüllt und als PDF hier im Chat gesendet. Bitte prüfen und unterschreiben."

  /** The reply when building or sending the PDF failed. */
  const RetryText: string :=
    "Ich konnte die Datei gerade nicht erzeugen/senden. Versuch es bitte nochmal oder gib mir kurz Bescheid."

  /**
   The text sent back for an orchestrator reply, in the message's language.
   The three fixed texts differ from each other, so the text of a reply that
   is not a prompt tells which outcome it reports.
   */
  function ReplyText(c: Catalogs, lang: string, reply: Reply): (r: string)
    ensures !reply.Prompt? ==> (r == TwilioError <==> reply.Crashed?)
    ensures !reply.Prompt? ==> (r == DoneText <==> reply.Finished?)
    ensures !reply.Prompt? ==> (r == RetryText <==> reply.RetryLater?)
    ensures reply.Crashed? ==> r == TwilioError
    ensures reply.Finished? ==> r == DoneText
    ensures reply.RetryLater? ==> r == RetryText
    ensures reply.Prompt? ==> r == T(c, lang, reply.key)
  {
    match reply
    case Prompt(key, _) => T(c, lang, key)
    case Finished => DoneText
    case RetryLater => RetryText
    case Crashed => TwilioError
  }

  /** The outcome of one webhook call: the session store afterwards, the user id and the reply text. */
  datatype Outcome = Outcome(store: map<string, State>, user: string, text: string)

  /**
   Python's `webhook_twilio` without the logging and the sending: the user id
   from `From`, the language from `Body`, one `handle_message` call, and the
   fixed apology for an exception.
   */
  function TwilioTurn(store: map<string, State>, form: FormDef, c: Catalogs, from: string, body: string, d: Delivery)
    : (r: Outcome)
    ensures r.user == TwilioUser(from)
    ensures r.store.Keys == store.Keys + {r.user}
    ensures forall u :: u in store && u != r.user ==> r.store[u] == store[u]
    ensures r.store[r.user].lang == DetectLang(body)
    ensures r.text == ReplyText(c, DetectLang(body), HandleMessage(store, form, r.user, body, DetectLang(body), d).1)
  {
    var user := TwilioUser(from);
    var lang := DetectLang(body);
    var (store', reply) := HandleMessage(store, form, user, body, lang, d);
    Outcome(store', user, ReplyText(c, lang, reply))
  }

  /**
   A turn whose form has no fields raises inside `handle_message` while the
   sender's index is 0, as it is for every new sender: the sender gets the
   apology, and the session keeps the sniffed language.
   */
  lemma EmptyFormApologises(store: map<string, State>, form: FormDef, c: Catalogs, from: string, body: string, d: Delivery)
    requires |form.order| == 0 && !AsksWohngeld(body)
    requires TwilioUser(from) in store ==> store[TwilioUser(from)].idx == 0
    ensures TwilioTurn(store, form, c, from, body, d).text == TwilioError
  {
  }

  /** Two senders that differ only in the channel prefix share one session. */
  lemma ChannelPrefixSharesSession(
    store: map<string, State>, form: FormDef, c: Catalogs, number: string, body: string, d: Delivery)
    requires !Contains(number, Channel)
    ensures TwilioTurn(store, form, c, Channel + number, body, d) == TwilioTurn(store, form, c, number, body, d)
  {
    TwilioUserOfChannel(number);
    TwilioUserPlain(number);
  }
}

=== FILE: wrappers.dfy ===
/** Python's `None`-or-value results, as an Option. */
module Wrappers {

  datatype Option<+T> = None | Some(value: T) {

    /** Returns the value held in Some, or `default` for None (Python's `d.get(k, default)` shape). */
    function GetOr(default: T): T {
      match this
      case Some(v) => v
      case None => default
    }
  }
}
